=== FILE: README.md ===
# JSON Schema Builder — a Dafny model of its core

The JSON Schema Builder is a small React application. A user edits a tree of
schema fields and sees a live JSON preview of it. Each field has a name, a
type (`string`, `number` or `nested`), an optional default value and, for
nested fields, a list of child fields. This project models the logic behind
the editor and proves properties of that model:

- **Field factory and type reset** (`Schema`, `FieldEditor`).
  `createDefaultField` builds a field whose default value and children depend
  on its type. `handleTypeChange` resets both when the type changes. Together
  they keep the invariant "exactly one of `defaultValue` and `children` is
  defined, as the type dictates" (`WellShaped`).
- **Paths** (`Paths`). A component addresses its list with a dotted string
  such as `fields.2.children.0.children`. Here a path is the sequence of
  indices it passes through, and the dotted string is modelled by its
  sequence of dot-separated parts. That makes the source's
  `pathParts.length === 1` test the same as "the path is empty".
- **Tree mutations** (`Tree`, `Builder`). These are `addField`,
  `removeField`, `addNestedField` and `removeNestedField`. Each one is a
  function from the root field list to the new root field list. The form
  library's `getValues`/`setValue` on a dotted path become `Get`/`UpdateAt`
  on an index path.
- **Button routing** (`FieldEditor`). This is how the "Add Nested" and
  "Delete" buttons of a field at a given depth reach the mutations.
- **Preview** (`Text`, `Preview`). `generateSchema` maps the field tree to a
  JSON object. The object is an association list kept in key-insertion
  order. JavaScript's `trim`, `String(n)` and `Number(s)` are modelled on
  decimal integers.

Every operation is a pure function on immutable values, so the projection
cannot modify its input.

Files: `optional.dfy`, `text.dfy`, `schema.dfy`, `paths.dfy`, `tree.dfy`,
`builder.dfy`, `field_editor.dfy`, `preview.dfy`.

## Model

| member | source | states |
|---|---|---|
| Schema.CreateDefaultField | src/types/schema.js:7-13 | The field carries the caller's id and an empty name. Its type is the requested one, defaulting to string. A string field gets `''` and undefined children. A number field gets `0` and undefined children. A nested field gets an undefined default and `[]`. The result is well shaped. |
| Paths.ChildPathExtendsParent | src/components/SchemaField.jsx:171 | The list path a field hands to its children (`${fieldPath}.children`, with `fieldPath` built at line 22) is the parent's path extended by the field's own index. |
| Paths.PartsAlternate | src/components/SchemaBuilder.jsx:43-46 | The parts of a path are `fields`, then one index and one `children` step per level. So there are `1 + 2·depth` parts, only the root list has exactly one part, and `pathParts[1]` is the root ancestor's index. |
| Paths.PathRoundTrip | src/components/SchemaField.jsx:22 | Reading the parts back recovers the index sequence, so distinct paths give distinct path strings. |
| Tree.Get | src/components/SchemaBuilder.jsx:81 | `getValues` on an index path. It has no contract of its own. `Tree.UpdateAt`, `Tree.UpdateAtFrame` and `Tree.UpdateAtKeepsAncestors` state what it reads after a write, and `Builder.GetWellShaped` shows that every node it reaches in a well-shaped tree is well shaped. |
| Tree.WithoutIndex | src/components/SchemaBuilder.jsx:49 | Filtering out index `i` removes exactly element `i` and keeps the rest in order. An out-of-range `i` leaves the list unchanged. |
| Tree.UpdateAt | src/components/SchemaBuilder.jsx:80-82 | Writing at a path keeps the root length. It replaces the addressed node by its update and changes nothing when the path addresses no node. |
| Tree.UpdateAtFrame | src/components/SchemaBuilder.jsx:80-82 | Every path that is neither a prefix nor an extension of the written path addresses the same node as before. |
| Tree.UpdateAtKeepsAncestors | src/components/SchemaBuilder.jsx:80-82 | Ancestors of the written node keep their id, name, type and default, and whether their children are defined. |
| Tree.UpdateAtPreservesShape | src/components/SchemaBuilder.jsx:80-82 | An update that leaves the addressed node well shaped leaves the whole tree well shaped. |
| Tree.UpdateAtUndo | src/components/SchemaBuilder.jsx:80-82 | Two writes at the same path, the second undoing the first on that node, restore the tree. |
| Builder.AddField | src/components/SchemaBuilder.jsx:36-40 | The root list grows by one and its earlier fields are unchanged and in order. The last field is a fresh default string field. A well-shaped list stays well shaped. |
| Builder.RemoveField | src/components/SchemaBuilder.jsx:42-62 | At the root it drops exactly element `i`, or changes nothing when `i` is out of range. Below the root the root list keeps its length. |
| Builder.RemoveFieldNestedTargetsRootAncestor | src/components/SchemaBuilder.jsx:51-60 | Below the root, `removeField` filters the children of the root ancestor `pathParts[1]`, whatever the depth of the path. |
| Builder.AddFieldThenRemoveLast | src/components/SchemaBuilder.jsx:36-50 | Adding a field and then removing the last index gives back the original root list. |
| Builder.AppendChild | src/components/SchemaBuilder.jsx:73-74 | The field's children, or `[]` when they are undefined, followed by the new field, written back as its children list. It has no contract of its own. The contract of `Builder.AddNestedField` states its effect at the addressed node. |
| Builder.AddNestedField | src/components/SchemaBuilder.jsx:64-84 | When the parent exists, its children become its old children (or `[]`) followed by the new field, and nothing else in it changes. When there is no such parent, the tree is unchanged. |
| Builder.AddNestedFieldIsUpdate | src/components/SchemaBuilder.jsx:67-83 | The root branch and the deep branch perform the same write: an append at `parentPath + [parentFieldIndex]`. |
| Builder.AddNestedFieldFrame | src/components/SchemaBuilder.jsx:76-83 | Every other branch of the tree reads the same after `addNestedField`. |
| Builder.AddNestedFieldPreservesShape | src/components/SchemaBuilder.jsx:64-84 | Adding a well-shaped field under a nested parent keeps the tree well shaped. |
| Builder.AddNestedFieldUnderScalarBreaksShape | src/components/SchemaBuilder.jsx:72-74 | The parent's type is never checked: adding under a string field gives it children next to its default, which breaks the invariant. |
| Builder.RemoveNestedField | src/components/SchemaBuilder.jsx:86-99 | With a root-level parent it removes child `k` of `fields[p]` and leaves every other root field alone. It is a no-op when the parent or its children are missing, or `k` is out of range, and always a no-op for a deeper `parentPath`. |
| Builder.RemoveChild | src/components/SchemaBuilder.jsx:95 | `children.filter((_, index) => index !== k)` on a field with defined children. It has no contract of its own. The contracts of `Builder.RemoveNestedField` and `Builder.RemoveChildAt` state its effect, and `Tree.WithoutIndex` states the filter. |
| Builder.RemoveChildAt | src/components/SchemaBuilder.jsx:86-99 | The intended removal at any depth. Child `k` of the addressed node is dropped, or nothing when `k` is out of range, and the rest of that node is kept. It is a no-op when the node or its children are missing. |
| Builder.RemoveChildAtFrame | src/components/SchemaBuilder.jsx:86-99 | The intended removal leaves every branch outside the addressed node reading exactly as before. |
| Builder.RemoveNestedFieldAgreesAtRoot | src/components/SchemaBuilder.jsx:89-97 | At root depth `removeNestedField` is exactly the intended removal. |
| Builder.AddNestedThenRemoveChildAt | src/components/SchemaBuilder.jsx:64-99 | At any depth, adding a child and then removing the last child of the same parent restores the tree. |
| Builder.AddNestedThenRemoveNestedAtRoot | src/components/SchemaBuilder.jsx:67-97 | With a root-level parent, adding a child and then removing it with `removeNestedField` restores the tree. |
| Builder.AddNestedThenRemoveNestedDeepFails | src/components/SchemaBuilder.jsx:86-99 | One level deeper, `removeNestedField` leaves the added child in place while the intended removal restores the tree. |
| FieldEditor.HandleTypeChange | src/components/SchemaField.jsx:32-46 | The type is set and the name and id are kept. String gives `''` and no children. Number gives `0` and no children. Nested gives no default and `[]`, discarding earlier children. The result is well shaped whatever the input. |
| FieldEditor.TypeChangeMatchesFactory | src/components/SchemaField.jsx:32-46 | A type change yields what the factory builds for the new type, with the old id and name. |
| FieldEditor.ChangeTypeAt | src/components/SchemaField.jsx:32-46 | At the field's path the node becomes exactly `handleTypeChange` of the old node: the new type, `''`, `0` or undefined plus `[]` as the type dictates, and the same name and id. A missing field leaves the tree unchanged. |
| FieldEditor.ChangeTypeAtFrame | src/components/SchemaField.jsx:32-46 | A type change leaves every branch outside the changed field reading exactly as before. |
| FieldEditor.ChangeTypeAtPreservesShape | src/components/SchemaField.jsx:32-46 | A type change anywhere in a well-shaped tree leaves every node well shaped. |
| FieldEditor.AddNestedClick | src/components/SchemaField.jsx:48-51 | "Add Nested" appends exactly `createDefaultField()`, a string field with default `''` and no children, after the field's earlier children. Every other attribute of the field is kept. A missing field leaves the tree unchanged. |
| FieldEditor.DeleteClick | src/components/SchemaField.jsx:53-55 | A root field's Delete is the root `removeField`. A grandchild's Delete, or one at any deeper level, leaves the tree unchanged. |
| FieldEditor.DeleteAt | src/components/SchemaField.jsx:151 | The intended Delete drops the field from its own list at any depth and keeps the other fields of that list in order. Below the root the rest of the parent is kept, and an out-of-range index, a missing parent or a parent without children leaves the tree unchanged. |
| FieldEditor.DeleteAtFrame | src/components/SchemaField.jsx:151 | Below the root the intended Delete leaves every branch outside the parent's children list reading exactly as before. |
| FieldEditor.DeleteClickShallowIsDeleteAt | src/components/SchemaField.jsx:53-55 | For root fields and their children, Delete is the intended deletion. |
| FieldEditor.DeleteClickMissesGrandchild | src/components/SchemaField.jsx:167-171 | On a three-level tree, a grandchild's Delete leaves the tree unchanged, while the intended deletion removes the grandchild. |
| FieldEditor.AddNestedThenDeleteRestores | src/components/SchemaField.jsx:48-55 | At every depth, "Add Nested" followed by the intended Delete of the new child restores the tree. |
| Text.TrimStart | src/components/JsonPreview.jsx:9 | The result is a suffix of the input, everything cut off is white space, and the result does not start with white space. |
| Text.TrimEnd | src/components/JsonPreview.jsx:9 | The result is a prefix of the input, everything cut off is white space, and the result does not end with white space. |
| Text.Trim | src/components/JsonPreview.jsx:9 | `trim()` is `trimEnd` after `trimStart`. It has no contract of its own. `Text.TrimEmptyIff`, `Text.TrimUntouched` and `Text.TrimPadding` characterise it. |
| Text.IsBlank | src/components/JsonPreview.jsx:9 | The preview's skip test: the name is empty or trims to `''`. It has no contract of its own. `Text.BlankIff` characterises it as "every character is white space". |
| Text.TrimEmptyIff | src/components/JsonPreview.jsx:9 | `trim()` gives `''` exactly when every character is white space. |
| Text.BlankIff | src/components/JsonPreview.jsx:9 | The preview's blank-name test holds exactly for names made only of white space, the empty name included. |
| Text.TrimPadding | src/components/JsonPreview.jsx:20 | A space on either side of a numeral is trimmed away. |
| Text.NatToDigits | src/components/JsonPreview.jsx:22 | `String(n)` of a natural number is a non-empty string of decimal digits without leading zeros. It has one digit exactly when `n < 10` and starts with `0` exactly when `n` is 0. |
| Text.IntToString | src/components/JsonPreview.jsx:22 | `String(n)` for an integer is a canonical numeral. It starts with a minus sign exactly when `n` is negative, and the digits have no leading zeros. `Text.ParseIntString` and `Text.CanonicalNumeralUnique` make it the one canonical spelling of `n`. |
| Text.DigitsRoundTrip | src/components/JsonPreview.jsx:20-22 | Reading the digits of `n` back gives `n`. |
| Text.CanonicalDigitsUnique | src/components/JsonPreview.jsx:22 | Digits without leading zeros are exactly the digits `String` gives their value. |
| Text.ParseInteger | src/components/JsonPreview.jsx:20 | A numeral is read exactly when it is an optional sign followed by at least one digit. |
| Text.NumberOfString | src/components/JsonPreview.jsx:20 | `Number` of an all-white-space string is `0`. A value is produced only when it is at most 2^53 in magnitude, so `Number` reads it exactly. Outside white space, a produced value is the signed numeral's value, and every numeral whose value is at most 2^53 in magnitude produces that value. |
| Text.ParseIntString | src/components/JsonPreview.jsx:20-22 | The numeral `String(n)` reads back as `n`, sign included. |
| Text.CanonicalNumeralUnique | src/components/JsonPreview.jsx:22 | Every canonical numeral reads as an integer whose `String` is that numeral again, so `String(n)` is the unique canonical spelling of `n`. |
| Text.IntStringRoundTrip | src/components/JsonPreview.jsx:20-22 | `Number(String(n)) === n` for every integer `n` of at most 2^53 in magnitude. Any larger `n` is left uninterpreted, because `Number` would round it. |
| Text.PaddedIntString | src/components/JsonPreview.jsx:20 | White space around a signed numeral is ignored: `Number(' ' + String(n) + ' ') === n` when `n` is at most 2^53 in magnitude, and uninterpreted beyond. |
| Preview.Lookup | src/components/JsonPreview.jsx:29 | `schema[k]` is defined exactly when `k` is a key. |
| Preview.Put | src/components/JsonPreview.jsx:29 | Assigning an existing key keeps the key sequence. A new key is appended at the end. No entry appears other than the old ones and the new binding. |
| Preview.PutLookup | src/components/JsonPreview.jsx:29 | After `schema[k] = v`, `k` reads `v`, every other key reads what it read before, and distinct keys stay distinct. |
| Preview.NumberOf | src/components/JsonPreview.jsx:20 | `Number(defaultValue)`: a number stays itself, a text is read by `Text.NumberOfString`, and a text the model does not interpret becomes `JNumeral`. It has no contract of its own. `Preview.ScalarValue` and `Preview.NumberTextAgreesWithNumber` state its effect. |
| Preview.StringOf | src/components/JsonPreview.jsx:22 | `String(defaultValue)`: a text stays itself and a number becomes `Text.IntToString` of it. It has no contract of its own. `Preview.ScalarValue` states its effect on text defaults. |
| Preview.ScalarValue | src/components/JsonPreview.jsx:14-27 | A number field gives a number, and any other field gives a string. With no default, a field gives `0` or `''` by its type. On a number field, a default of `''` gives `0` and a numeric default gives that number. On any other field, a text default gives that text and a numeric default gives `String(n)`. |
| Preview.FieldValue | src/components/JsonPreview.jsx:11-29 | The value bound to a field's name: the projection of its children when it is nested and `children` is defined, its scalar value otherwise. It has no contract of its own. `Preview.ScalarValue`, `Preview.FieldValueKeys` and the examples `Preview.ExampleNested`, `Preview.ExampleEmptyChildren` and `Preview.ExampleUndefinedChildren` characterise it. |
| Preview.Step | src/components/JsonPreview.jsx:9-30 | One `forEach` iteration: a blank name is skipped, any other name is assigned the field's value. It has no contract of its own. `Preview.StepKeys`, `Preview.StepLookup`, `Preview.StepNewKey` and `Preview.StepKnownKey` characterise it. |
| Preview.Generate | src/components/JsonPreview.jsx:7-31 | `fields.forEach(...)` on an object built so far, in field order. It has no contract of its own. `Preview.GenerateAppend` and `Preview.GenerateKeys` characterise it. |
| Preview.Project | src/components/JsonPreview.jsx:4-34 | `generateSchema(fields)`, which starts from `{}`. It has no contract of its own. `Preview.ProjectKeySet`, `Preview.ProjectKeyOrder`, `Preview.ProjectUniqueKeys`, `Preview.ProjectValues` and `Preview.ProjectKeysAtAllDepths` describe it without the fold. |
| Preview.ProjectRoot | src/components/JsonPreview.jsx:36 | The root projection is an object, and a missing or empty field list projects to `{}`. |
| Preview.GenerateAppend | src/components/JsonPreview.jsx:7-31 | The `forEach` is a left fold: projecting one more field is one more step on the projection so far. |
| Preview.ProjectKeySet | src/components/JsonPreview.jsx:7-31 | The keys of a level are exactly the non-blank names of that level's fields. |
| Preview.ProjectKeyOrder | src/components/JsonPreview.jsx:7-31 | Keys appear in the order in which their name first occurs among the fields, so a repeated name keeps its first position. |
| Preview.ProjectUniqueKeys | src/components/JsonPreview.jsx:29 | No key occurs twice. |
| Preview.ProjectValues | src/components/JsonPreview.jsx:7-31 | The value under a name is that of the last field carrying it. A blank name, or one no field carries, has no value. |
| Preview.ProjectKeysAtAllDepths | src/components/JsonPreview.jsx:9-12 | At every depth, every key is a non-blank name of some field of the tree, so blank-named fields contribute nothing anywhere. |
| Preview.NumberTextAgreesWithNumber | src/components/JsonPreview.jsx:19-20 | A number default typed in as the text `String(n)` projects like the number `n`, for every `n` a double holds exactly. |
| Preview.NumeralText | src/components/JsonPreview.jsx:19-20 | A number field whose default is any non-empty text that `Number` reads as `n` projects exactly as if its default were the number `n`. |
| Preview.ProjectOne | src/components/JsonPreview.jsx:7-31 | A single non-blank field projects to the one binding of its name to its value. |
| Preview.StringFieldValue | src/components/JsonPreview.jsx:21-22 | A string field with a text default projects to that text. |
| Preview.StepNewKey | src/components/JsonPreview.jsx:29 | A non-blank name not yet bound is appended with the field's value. |
| Preview.StepKnownKey | src/components/JsonPreview.jsx:29 | A name already bound at position `i` gets the field's value at position `i`. |
| Preview.ExampleTitle | src/components/JsonPreview.jsx:21-22 | `[{name: 'title', type: 'string', defaultValue: 'Hello'}]` projects to `{"title": "Hello"}`. |
| Preview.ExampleEmptyNumber | src/components/JsonPreview.jsx:19-20 | A number field `age` with default `''` projects to `{"age": 0}`. |
| Preview.ProjectBlankPair | src/components/JsonPreview.jsx:9 | Two fields whose names are both blank give no key at all. |
| Preview.ExampleBlankNames | src/components/JsonPreview.jsx:9 | Fields named `''` and `' \t'` contribute nothing. |
| Preview.ProjectNestedOne | src/components/JsonPreview.jsx:11-12 | A nested field with one child projects to an object holding exactly that child's binding. |
| Preview.ExampleNested | src/components/JsonPreview.jsx:11-12 | `address` with the child `city: 'NYC'` projects to `{"address": {"city": "NYC"}}`. |
| Preview.ExampleEmptyChildren | src/components/JsonPreview.jsx:11-12 | A nested field with `[]` children projects to `{}`. |
| Preview.ExampleUndefinedChildren | src/components/JsonPreview.jsx:11-27 | A nested field with undefined children is not projected as an object and falls back to `''`. |
| Preview.ExampleTwoNames | src/components/JsonPreview.jsx:7-31 | Two fields with distinct non-blank names project to two bindings, in field order. |
| Preview.ExampleDuplicateNames | src/components/JsonPreview.jsx:29 | For names `a, b, a`, key `a` stays first and holds the last field's value. |

## Left out

- React and the UI: JSX, styling, the expand/collapse state, the form hooks and the button/input/select components are presentation only.
- Form-library path mechanics. `setValue` on a deep path whose intermediate nodes are missing would create them. The model treats a write to a missing node as a no-op (`Tree.UpdateAt`), since only the branching on depth matters here.
- The debug `console.log` effect in src/components/SchemaBuilder.jsx:21-34 has no logic.
- Id generation (`Date.now() + Math.random()`) is nondeterministic floating point. The id is a parameter of the factory. Nothing in the source makes ids unique, and the model does not assume that they are.
- Text.NumberOfString: `Number(s)` is interpreted only for decimal integers with an optional sign and surrounding white space, and only when the value is at most 2^53 in magnitude. `Number` rounds a longer numeral such as `9007199254740993` to a nearby double (`9007199254740992`). The model does not compute that rounding and leaves such a numeral uninterpreted as `Preview.JNumeral(text)`. The same holds for fractions, exponents, hex, `Infinity` and text that gives `NaN`, and how `JSON.stringify` prints `NaN` is not modelled.
- Schema.Value: numeric defaults are integers only. Floating-point numbers are out of scope. The factory and the type change store only `0`, so a number beyond 2^53 never arises from the modelled operations.
- `JSON.stringify(..., null, 2)`, the `|| '{}'` fallback and the Blob byte size are library serialisation. The output is a JSON value, not text.
- JavaScript's ordering of integer-like keys before other keys, and the special `__proto__` key: keys are modelled as ordinary strings kept in insertion order.
- The `required` validation rule on the name input is UI-only and is not enforced by the core.
- The `Controller` edits of name and default value are plain field writes, and `Tree.UpdateAt` covers them generically.
- The root `|| []` fallbacks of `getValues('fields')`: the root list is always defined in the model. The root projection's `data.fields || []` is modelled by `Preview.ProjectRoot`.
- `null` is not distinguished from `undefined`: both are `None`, as the preview treats them alike.
- No operation reports an invalid path. In `removeField`, `removeNestedField` and the root-level branch of `addNestedField`, an out-of-range index or a missing parent is silently ignored, and the model does the same. In the deep branch of `addNestedField`, `setValue` would instead create the missing node; the model keeps it a no-op, as the form-library line above says. `addNestedField` never checks that the parent is nested (`Builder.AddNestedFieldUnderScalarBreaksShape`).
- `Number(...)` is passed through unchanged, `NaN` included. The model keeps it as the `JNumeral` case.

## Findings

| source | as written | input that shows it | evidently intended | confidence | as-written member | corrected member |
|---|---|---|---|---|---|---|
| src/components/SchemaBuilder.jsx:86-99 | `removeNestedField` acts only when `parentPath` has one part (the root list). A child field's Delete goes through its parent's `handleRemoveNestedField`, which passes the parent's own `parentPath`. So for a field two or more levels below the root, that path is deeper and nothing happens. | A root nested field whose nested child holds one string field (parent path `fields.0.children.0.children`). Pressing Delete on that string field leaves the tree unchanged. | Remove child `nestedFieldIndex` of the node at `parentPath` + `parentFieldIndex` at every depth, so that Delete removes the field from its own list. | not executed; high | FieldEditor.DeleteClickMissesGrandchild | FieldEditor.DeleteAt |

`Builder.AddNestedThenRemoveNestedDeepFails` shows the same defect as a
failed round trip. `Builder.RemoveChildAt` is the corrected removal, and
`Builder.AddNestedThenRemoveChildAt` and
`FieldEditor.AddNestedThenDeleteRestores` prove that it undoes "Add Nested"
at every depth.

=== FILE: builder.dfy ===
/** The tree mutations of the schema builder (src/components/SchemaBuilder.jsx):
    each takes the root field list and returns the new one. A parent path is
    the index sequence of the list a component lives in (`[]` for the root
    list `fields`); see the Paths module for how it corresponds to the dotted
    string and why its emptiness is the source's `pathParts.length === 1`. */
module Builder {
  import opened Optional
  import opened Schema
  import opened Tree

  /** `[...children, newField]` on a field, creating the list when it is
      undefined. The field's type is not consulted. */
  function AppendChild(f: Field, newField: Field): Field {
    f.(children := Defined(ChildList(f.children) + [newField]))
  }

  function AppendingChild(newField: Field): Field -> Field {
    f => AppendChild(f, newField)
  }

  /** Filters child `k` out of a field's defined children; a field without
      children is left as it is. */
  function RemoveChild(f: Field, k: nat): Field {
    match f.children
    case Undefined => f
    case Defined(cs) => f.(children := Defined(WithoutIndex(cs, k)))
  }

  function RemovingChild(k: nat): Field -> Field {
    f => RemoveChild(f, k)
  }

  /** `addField`: appends a fresh default field to the root list. */
  function AddField(fields: seq<Field>, id: int): (r: seq<Field>)
    ensures |r| == |fields| + 1 && r[..|fields|] == fields
    ensures r[|fields|].id == id && r[|fields|].name == ""
    ensures r[|fields|].fieldType == StringType
    ensures r[|fields|].defaultValue == Some(Text("")) && r[|fields|].children == Undefined
    ensures AllWellShaped(fields) ==> AllWellShaped(r)
  {
    fields + [CreateDefaultField(id, None)]
  }

  /** `removeField(fieldIndex, parentPath)`. At the root it filters the
      index out; below the root it reads only `pathParts[1]`, the index of
      the root ancestor, and filters that field's children. */
  function RemoveField(fields: seq<Field>, fieldIndex: nat, parentPath: seq<nat>): (r: seq<Field>)
    ensures parentPath == [] && fieldIndex < |fields| ==>
              r == fields[..fieldIndex] + fields[fieldIndex + 1..]
    ensures parentPath == [] && fieldIndex >= |fields| ==> r == fields
    ensures parentPath != [] ==> |r| == |fields|
  {
    if parentPath == [] then WithoutIndex(fields, fieldIndex)
    else
      var p := parentPath[0];
      if p < |fields| && fields[p].children.Defined? then
        fields[p := RemoveChild(fields[p], fieldIndex)]
      else fields
  }

  /** Below the root, `removeField` acts on the children of the root
      ancestor whatever the depth of `parentPath`. */
  lemma RemoveFieldNestedTargetsRootAncestor(fields: seq<Field>, fieldIndex: nat, parentPath: seq<nat>)
    requires parentPath != []
    ensures RemoveField(fields, fieldIndex, parentPath) == UpdateAt(fields, [parentPath[0]], RemovingChild(fieldIndex))
  {
  }

  /** Adding a field to the root list and removing the last index gives back
      the list. */
  lemma AddFieldThenRemoveLast(fields: seq<Field>, id: int)
    ensures RemoveField(AddField(fields, id), |fields|, []) == fields
  {
    assert AddField(fields, id)[..|fields|] == fields;
  }

  /** `addNestedField(parentFieldIndex, newField, parentPath)`. At the root
      it appends to the children of `fields[parentFieldIndex]` if that field
      exists; below the root it appends to the children list at the composed
      path `parentPath.parentFieldIndex.children`. */
  function AddNestedField(fields: seq<Field>, parentFieldIndex: nat, newField: Field, parentPath: seq<nat>): (r: seq<Field>)
    ensures |r| == |fields|
    ensures Get(fields, parentPath + [parentFieldIndex]).None? ==> r == fields
    ensures Get(fields, parentPath + [parentFieldIndex]).Some? ==>
              var before := Get(fields, parentPath + [parentFieldIndex]).value;
              && Get(r, parentPath + [parentFieldIndex]).Some?
              && var after := Get(r, parentPath + [parentFieldIndex]).value;
              && after.children == Defined(ChildList(before.children) + [newField])
              && after.(children := before.children) == before
  {
    if parentPath == [] then
      if parentFieldIndex < |fields| then
        fields[parentFieldIndex := AppendChild(fields[parentFieldIndex], newField)]
      else fields
    else
      UpdateAt(fields, parentPath + [parentFieldIndex], AppendingChild(newField))
  }

  /** Both depth branches of `addNestedField` perform the same update: the
      children of the node at `parentPath + [parentFieldIndex]` get the new
      field appended. */
  lemma AddNestedFieldIsUpdate(fields: seq<Field>, parentFieldIndex: nat, newField: Field, parentPath: seq<nat>)
    ensures AddNestedField(fields, parentFieldIndex, newField, parentPath)
         == UpdateAt(fields, parentPath + [parentFieldIndex], AppendingChild(newField))
  {
  }

  /** `addNestedField` leaves every other branch of the tree untouched. */
  lemma AddNestedFieldFrame(fields: seq<Field>, parentFieldIndex: nat, newField: Field, parentPath: seq<nat>, q: seq<nat>)
    requires !(parentPath + [parentFieldIndex] <= q) && !(q <= parentPath + [parentFieldIndex])
    ensures Get(AddNestedField(fields, parentFieldIndex, newField, parentPath), q) == Get(fields, q)
  {
    AddNestedFieldIsUpdate(fields, parentFieldIndex, newField, parentPath);
    UpdateAtFrame(fields, parentPath + [parentFieldIndex], AppendingChild(newField), q);
  }

  /** Adding a well-shaped field under a nested parent keeps the tree well
      shaped. */
  lemma AddNestedFieldPreservesShape(fields: seq<Field>, parentFieldIndex: nat, newField: Field, parentPath: seq<nat>)
    requires AllWellShaped(fields) && WellShaped(newField)
    requires Get(fields, parentPath + [parentFieldIndex]).Some? ==>
               Get(fields, parentPath + [parentFieldIndex]).value.fieldType == NestedType
    ensures AllWellShaped(AddNestedField(fields, parentFieldIndex, newField, parentPath))
  {
    var path := parentPath + [parentFieldIndex];
    AddNestedFieldIsUpdate(fields, parentFieldIndex, newField, parentPath);
    if Get(fields, path).Some? {
      var parent := Get(fields, path).value;
      assert WellShaped(parent) by {
        GetWellShaped(fields, path);
      }
      var after := AppendChild(parent, newField);
      assert forall i :: 0 <= i < |after.children.items| ==> WellShaped(after.children.items[i]) by {
        forall i | 0 <= i < |after.children.items| ensures WellShaped(after.children.items[i]) {
          if i < |parent.children.items| {
            assert after.children.items[i] == parent.children.items[i];
          }
        }
      }
    }
    UpdateAtPreservesShape(fields, path, AppendingChild(newField));
  }

  /** Every node of a well-shaped tree is well shaped. */
  lemma {:induction false} GetWellShaped(fs: seq<Field>, path: seq<nat>)
    requires AllWellShaped(fs) && Get(fs, path).Some?
    ensures WellShaped(Get(fs, path).value)
    decreases |path|
  {
    if |path| > 1 {
      assert WellShaped(fs[path[0]]);
      GetWellShaped(fs[path[0]].children.items, path[1..]);
    }
  }

  /** The parent's type is never checked: adding under a string field gives
      it a children list next to its default value. */
  lemma AddNestedFieldUnderScalarBreaksShape()
    ensures var fields := [CreateDefaultField(1, None)];
            && AllWellShaped(fields)
            && !AllWellShaped(AddNestedField(fields, 0, CreateDefaultField(2, None), []))
  {
    var r := AddNestedField([CreateDefaultField(1, None)], 0, CreateDefaultField(2, None), []);
    assert !WellShaped(r[0]);
  }

  /** `removeNestedField(parentFieldIndex, nestedFieldIndex, parentPath)`:
      acts only when `parentPath` is the root list, filtering child
      `nestedFieldIndex` out of `fields[parentFieldIndex]`; for any deeper
      `parentPath` it does nothing. */
  function RemoveNestedField(fields: seq<Field>, parentFieldIndex: nat, nestedFieldIndex: nat, parentPath: seq<nat>): (r: seq<Field>)
    ensures |r| == |fields|
    ensures parentPath != [] ==> r == fields
    ensures parentPath == [] && parentFieldIndex < |fields| && fields[parentFieldIndex].children.Defined? ==>
              var cs := fields[parentFieldIndex].children.items;
              && r[parentFieldIndex].children.Defined?
              && (nestedFieldIndex < |cs| ==>
                    r[parentFieldIndex].children.items == cs[..nestedFieldIndex] + cs[nestedFieldIndex + 1..])
              && (nestedFieldIndex >= |cs| ==> r == fields)
              && (forall j :: 0 <= j < |fields| && j != parentFieldIndex ==> r[j] == fields[j])
    ensures parentPath == [] && (parentFieldIndex >= |fields| || fields[parentFieldIndex].children.Undefined?) ==>
              r == fields
  {
    if parentPath == [] then
      if parentFieldIndex < |fields| && fields[parentFieldIndex].children.Defined? then
        fields[parentFieldIndex := RemoveChild(fields[parentFieldIndex], nestedFieldIndex)]
      else fields
    else fields
  }

  /** The removal `removeNestedField` evidently intends: filter child
      `nestedFieldIndex` out of the node at `parentPath + [parentFieldIndex]`,
      at any depth. */
  function RemoveChildAt(fields: seq<Field>, parentFieldIndex: nat, nestedFieldIndex: nat, parentPath: seq<nat>): (r: seq<Field>)
    ensures |r| == |fields|
    ensures var target := Get(fields, parentPath + [parentFieldIndex]);
            target.None? || target.value.children.Undefined? ==> r == fields
    ensures var target := Get(fields, parentPath + [parentFieldIndex]);
            target.Some? && target.value.children.Defined? ==>
              var cs := target.value.children.items;
              && Get(r, parentPath + [parentFieldIndex]).Some?
              && var after := Get(r, parentPath + [parentFieldIndex]).value;
              && after.(children := target.value.children) == target.value
              && after.children.Defined?
              && (nestedFieldIndex < |cs| ==> after.children.items == cs[..nestedFieldIndex] + cs[nestedFieldIndex + 1..])
              && (nestedFieldIndex >= |cs| ==> after.children.items == cs)
  {
    UpdateAtNoChange(fields, parentPath + [parentFieldIndex], RemovingChild(nestedFieldIndex));
    UpdateAt(fields, parentPath + [parentFieldIndex], RemovingChild(nestedFieldIndex))
  }

  /** The intended removal leaves every branch outside the addressed node
      untouched. */
  lemma RemoveChildAtFrame(fields: seq<Field>, parentFieldIndex: nat, nestedFieldIndex: nat, parentPath: seq<nat>, q: seq<nat>)
    requires !(parentPath + [parentFieldIndex] <= q) && !(q <= parentPath + [parentFieldIndex])
    ensures Get(RemoveChildAt(fields, parentFieldIndex, nestedFieldIndex, parentPath), q) == Get(fields, q)
  {
    UpdateAtFrame(fields, parentPath + [parentFieldIndex], RemovingChild(nestedFieldIndex), q);
  }

  /** At the root depth `removeNestedField` is exactly the intended removal. */
  lemma RemoveNestedFieldAgreesAtRoot(fields: seq<Field>, parentFieldIndex: nat, nestedFieldIndex: nat)
    ensures RemoveNestedField(fields, parentFieldIndex, nestedFieldIndex, [])
         == RemoveChildAt(fields, parentFieldIndex, nestedFieldIndex, [])
  {
  }

  /** Adding a nested field and then removing the last child of the same
      parent gives back the tree, at any depth, when the parent had a
      children list. */
  lemma AddNestedThenRemoveChildAt(fields: seq<Field>, parentFieldIndex: nat, newField: Field, parentPath: seq<nat>)
    requires Get(fields, parentPath + [parentFieldIndex]).Some?
    requires Get(fields, parentPath + [parentFieldIndex]).value.children.Defined?
    ensures var n := |Get(fields, parentPath + [parentFieldIndex]).value.children.items|;
            RemoveChildAt(AddNestedField(fields, parentFieldIndex, newField, parentPath), parentFieldIndex, n, parentPath)
              == fields
  {
    var path := parentPath + [parentFieldIndex];
    var parent := Get(fields, path).value;
    var n := |parent.children.items|;
    var add, remove := AppendingChild(newField), RemovingChild(n);
    assert remove(add(parent)) == parent by {
      var a := AppendChild(parent, newField);
      assert a.children.items == parent.children.items + [newField];
      assert (parent.children.items + [newField])[..n] == parent.children.items;
      assert WithoutIndex(a.children.items, n) == parent.children.items;
    }
    AddNestedFieldIsUpdate(fields, parentFieldIndex, newField, parentPath);
    UpdateAtUndo(fields, path, add, remove);
  }

  /** With a root-level parent the as-written removal also undoes the add. */
  lemma AddNestedThenRemoveNestedAtRoot(fields: seq<Field>, parentFieldIndex: nat, newField: Field)
    requires parentFieldIndex < |fields| && fields[parentFieldIndex].children.Defined?
    ensures var n := |fields[parentFieldIndex].children.items|;
            RemoveNestedField(AddNestedField(fields, parentFieldIndex, newField, []), parentFieldIndex, n, [])
              == fields
  {
    AddNestedThenRemoveChildAt(fields, parentFieldIndex, newField, []);
    RemoveNestedFieldAgreesAtRoot(AddNestedField(fields, parentFieldIndex, newField, []), parentFieldIndex,
                                  |fields[parentFieldIndex].children.items|);
  }

  /** One level further down the round trip fails: the child added under
      `fields[0].children[0]` survives `removeNestedField`. */
  lemma AddNestedThenRemoveNestedDeepFails()
    ensures var inner := CreateDefaultField(2, Some(NestedType));
            var fields := [CreateDefaultField(1, Some(NestedType)).(children := Defined([inner]))];
            var added := AddNestedField(fields, 0, CreateDefaultField(3, None), [0]);
            && added != fields
            && RemoveNestedField(added, 0, 0, [0]) == added
            && RemoveChildAt(added, 0, 0, [0]) == fields
  {
    var inner := CreateDefaultField(2, Some(NestedType));
    var fields := [CreateDefaultField(1, Some(NestedType)).(children := Defined([inner]))];
    var added := AddNestedField(fields, 0, CreateDefaultField(3, None), [0]);
    assert Get(added, [0, 0]).value.children.items == [CreateDefaultField(3, None)];
    AddNestedThenRemoveChildAt(fields, 0, CreateDefaultField(3, None), [0]);
  }
}

=== FILE: field_editor.dfy ===
/** The per-field handlers of the editor component
    (src/components/SchemaField.jsx): the type reset, and how the "Add
    Nested" and "Delete" buttons of a field at `parentPath`/`fieldIndex` are
    routed to the builder's mutations. */
module FieldEditor {
  import opened Optional
  import opened Schema
  import opened Tree
  import opened Builder

  /** `handleTypeChange`: sets the type and resets `defaultValue` and
      `children` to what the new type dictates. A nested field changed to
      nested loses its children. */
  function HandleTypeChange(f: Field, newType: FieldType): (r: Field)
    ensures r.fieldType == newType
    ensures r.(fieldType := f.fieldType, defaultValue := f.defaultValue, children := f.children) == f
    ensures newType == StringType ==> r.defaultValue == Some(Text("")) && r.children == Undefined
    ensures newType == NumberType ==> r.defaultValue == Some(Num(0)) && r.children == Undefined
    ensures newType == NestedType ==> r.defaultValue == None && r.children == Defined([])
    ensures WellShaped(r)
  {
    match newType
    case StringType => f.(fieldType := newType, defaultValue := Some(Text("")), children := Undefined)
    case NumberType => f.(fieldType := newType, defaultValue := Some(Num(0)), children := Undefined)
    case NestedType => f.(fieldType := newType, defaultValue := None, children := Defined([]))
  }

  /** A type change resets a field to exactly what the factory would have
      produced for the new type, except that the name is kept. */
  lemma TypeChangeMatchesFactory(f: Field, newType: FieldType)
    ensures HandleTypeChange(f, newType) == CreateDefaultField(f.id, Some(newType)).(name := f.name)
  {
  }

  function ChangingType(newType: FieldType): Field -> Field {
    f => HandleTypeChange(f, newType)
  }

  /** The type change applied to the field at `parentPath + [fieldIndex]`
      (the handler writes below `${fieldPath}`). */
  function ChangeTypeAt(fields: seq<Field>, parentPath: seq<nat>, fieldIndex: nat, newType: FieldType): (r: seq<Field>)
    ensures |r| == |fields|
    ensures Get(fields, parentPath + [fieldIndex]).None? ==> r == fields
    ensures Get(fields, parentPath + [fieldIndex]).Some? ==>
              && Get(r, parentPath + [fieldIndex]).Some?
              && Get(r, parentPath + [fieldIndex]).value.fieldType == newType
              && Get(r, parentPath + [fieldIndex]).value.name == Get(fields, parentPath + [fieldIndex]).value.name
              && Get(r, parentPath + [fieldIndex]).value.id == Get(fields, parentPath + [fieldIndex]).value.id
              && ShapedByType(Get(r, parentPath + [fieldIndex]).value)
    ensures Get(fields, parentPath + [fieldIndex]).Some? ==>
              Get(r, parentPath + [fieldIndex]) == Some(HandleTypeChange(Get(fields, parentPath + [fieldIndex]).value, newType))
  {
    UpdateAt(fields, parentPath + [fieldIndex], ChangingType(newType))
  }

  /** A type change leaves every branch outside the changed field alone. */
  lemma ChangeTypeAtFrame(fields: seq<Field>, parentPath: seq<nat>, fieldIndex: nat, newType: FieldType, q: seq<nat>)
    requires !(parentPath + [fieldIndex] <= q) && !(q <= parentPath + [fieldIndex])
    ensures Get(ChangeTypeAt(fields, parentPath, fieldIndex, newType), q) == Get(fields, q)
  {
    UpdateAtFrame(fields, parentPath + [fieldIndex], ChangingType(newType), q);
  }

  /** After a type change anywhere in a well-shaped tree, every node is
      again shaped by its type. */
  lemma ChangeTypeAtPreservesShape(fields: seq<Field>, parentPath: seq<nat>, fieldIndex: nat, newType: FieldType)
    requires AllWellShaped(fields)
    ensures AllWellShaped(ChangeTypeAt(fields, parentPath, fieldIndex, newType))
  {
    UpdateAtPreservesShape(fields, parentPath + [fieldIndex], ChangingType(newType));
  }

  /** "Add Nested" on the field at `parentPath`/`fieldIndex`:
      `onAddNestedField(fieldIndex, createDefaultField(), parentPath)`. The
      new child is always a string field. */
  function AddNestedClick(fields: seq<Field>, parentPath: seq<nat>, fieldIndex: nat, id: int): (r: seq<Field>)
    ensures Get(fields, parentPath + [fieldIndex]).Some? ==>
              var before := ChildList(Get(fields, parentPath + [fieldIndex]).value.children);
              && Get(r, parentPath + [fieldIndex]).Some?
              && Get(r, parentPath + [fieldIndex]).value.children.Defined?
              && var after := Get(r, parentPath + [fieldIndex]).value.children.items;
              && |after| == |before| + 1 && after[..|before|] == before
              && after[|before|] == CreateDefaultField(id, None)
              && Get(r, parentPath + [fieldIndex]).value.(children := Get(fields, parentPath + [fieldIndex]).value.children)
                   == Get(fields, parentPath + [fieldIndex]).value
    ensures Get(fields, parentPath + [fieldIndex]).None? ==> r == fields
  {
    var r := AddNestedField(fields, fieldIndex, CreateDefaultField(id, None), parentPath);
    assert Get(fields, parentPath + [fieldIndex]).Some? ==>
             var before := ChildList(Get(fields, parentPath + [fieldIndex]).value.children);
             (before + [CreateDefaultField(id, None)])[..|before|] == before;
    r
  }

  /** "Delete" on the field at `parentPath`/`fieldIndex`:
      `onRemoveField(fieldIndex, parentPath)`. A root field's handler is the
      builder's `removeField`; a child's handler is its parent's
      `handleRemoveNestedField`, which calls
      `removeNestedField(parentIndex, fieldIndex, grandparentPath)`. */
  function DeleteClick(fields: seq<Field>, parentPath: seq<nat>, fieldIndex: nat): (r: seq<Field>)
    ensures parentPath == [] ==> r == RemoveField(fields, fieldIndex, [])
    ensures |parentPath| >= 2 ==> r == fields
  {
    if parentPath == [] then RemoveField(fields, fieldIndex, [])
    else
      var last := |parentPath| - 1;
      RemoveNestedField(fields, parentPath[last], fieldIndex, parentPath[..last])
  }

  /** The deletion the button evidently intends: filter `fieldIndex` out of
      the list at `parentPath`, at any depth. */
  function DeleteAt(fields: seq<Field>, parentPath: seq<nat>, fieldIndex: nat): (r: seq<Field>)
    ensures parentPath != [] ==> |r| == |fields|
    ensures parentPath == [] && fieldIndex < |fields| ==> r == fields[..fieldIndex] + fields[fieldIndex + 1..]
    ensures parentPath == [] && fieldIndex >= |fields| ==> r == fields
    ensures parentPath != [] && (Get(fields, parentPath).None? || Get(fields, parentPath).value.children.Undefined?) ==>
              r == fields
    ensures parentPath != [] && Get(fields, parentPath).Some? && Get(fields, parentPath).value.children.Defined? ==>
              var cs := Get(fields, parentPath).value.children.items;
              && Get(r, parentPath).Some?
              && var after := Get(r, parentPath).value;
              && after.(children := Get(fields, parentPath).value.children) == Get(fields, parentPath).value
              && after.children.Defined?
              && (fieldIndex < |cs| ==> after.children.items == cs[..fieldIndex] + cs[fieldIndex + 1..])
              && (fieldIndex >= |cs| ==> after.children.items == cs)
  {
    if parentPath == [] then WithoutIndex(fields, fieldIndex)
    else
      var last := |parentPath| - 1;
      assert parentPath[..last] + [parentPath[last]] == parentPath;
      RemoveChildAt(fields, parentPath[last], fieldIndex, parentPath[..last])
  }

  /** Below the root, the intended deletion leaves every branch outside the
      parent's children list untouched. */
  lemma DeleteAtFrame(fields: seq<Field>, parentPath: seq<nat>, fieldIndex: nat, q: seq<nat>)
    requires parentPath != [] && !(parentPath <= q) && !(q <= parentPath)
    ensures Get(DeleteAt(fields, parentPath, fieldIndex), q) == Get(fields, q)
  {
    var last := |parentPath| - 1;
    assert parentPath[..last] + [parentPath[last]] == parentPath;
    RemoveChildAtFrame(fields, parentPath[last], fieldIndex, parentPath[..last], q);
  }

  /** For root fields and their children the button deletes as intended. */
  lemma DeleteClickShallowIsDeleteAt(fields: seq<Field>, parentPath: seq<nat>, fieldIndex: nat)
    requires |parentPath| <= 1
    ensures DeleteClick(fields, parentPath, fieldIndex) == DeleteAt(fields, parentPath, fieldIndex)
  {
    if |parentPath| == 1 {
      RemoveNestedFieldAgreesAtRoot(fields, parentPath[0], fieldIndex);
    }
  }

  /** A grandchild's "Delete" does nothing although the intended deletion
      removes it. */
  lemma DeleteClickMissesGrandchild()
    ensures var leaf := CreateDefaultField(3, None);
            var mid := CreateDefaultField(2, Some(NestedType)).(children := Defined([leaf]));
            var fields := [CreateDefaultField(1, Some(NestedType)).(children := Defined([mid]))];
            && DeleteClick(fields, [0, 0], 0) == fields
            && Get(DeleteAt(fields, [0, 0], 0), [0, 0]).value.children == Defined([])
            && Get(fields, [0, 0, 0]) == Some(leaf)
  {
    var leaf := CreateDefaultField(3, None);
    var mid := CreateDefaultField(2, Some(NestedType)).(children := Defined([leaf]));
    var fields := [CreateDefaultField(1, Some(NestedType)).(children := Defined([mid]))];
    assert Get(fields, [0, 0]) == Some(mid);
  }

  /** "Add Nested" followed by the intended deletion of the new child gives
      back the tree at every depth, when the parent had a children list. */
  lemma AddNestedThenDeleteRestores(fields: seq<Field>, parentPath: seq<nat>, fieldIndex: nat, id: int)
    requires Get(fields, parentPath + [fieldIndex]).Some?
    requires Get(fields, parentPath + [fieldIndex]).value.children.Defined?
    ensures var n := |Get(fields, parentPath + [fieldIndex]).value.children.items|;
            DeleteAt(AddNestedClick(fields, parentPath, fieldIndex, id), parentPath + [fieldIndex], n) == fields
  {
    var path := parentPath + [fieldIndex];
    assert path[..|path| - 1] == parentPath;
    AddNestedThenRemoveChildAt(fields, fieldIndex, CreateDefaultField(id, None), parentPath);
  }
}

=== FILE: optional.dfy ===
/** A value that may be absent: stands for JavaScript's `undefined`/`null`
    on an optional property. */
module Optional {

  datatype Option<+T> = None | Some(value: T) {

    /** The value when present, otherwise `default` (JavaScript's `x ?? default`). */
    function GetOr(default: T): T {
      match this
      case Some(v) => v
      case None => default
    }
  }
}

=== FILE: paths.dfy ===
/** Form paths. A component receives its parent list's path as a dotted
    string, `fields` for the root list and `fields.2.children` for the
    children of root field 2; it names itself by appending its own index and
    names its children's list by appending `children` after that. Here a
    parent path is the sequence of indices it passes through, and the dotted
    string is modelled by the sequence of its dot-separated parts. */
module Paths {
  import opened Optional

  /** One dot-separated part of a path string. */
  datatype PathPart = FieldsRoot | Index(i: nat) | ChildrenStep

  /** The parts after `fields`: each index followed by a `children` step. */
  function Steps(p: seq<nat>): seq<PathPart> {
    if p == [] then [] else [Index(p[0]), ChildrenStep] + Steps(p[1..])
  }

  /** `parentPath.split('.')` for the list reached through the indices `p`. */
  function ParentPathParts(p: seq<nat>): seq<PathPart> {
    [FieldsRoot] + Steps(p)
  }

  /** A field's own path: its parent's path followed by its index. */
  function FieldPathParts(parentPath: seq<nat>, fieldIndex: nat): seq<PathPart> {
    ParentPathParts(parentPath) + [Index(fieldIndex)]
  }

  /** The parent path a field hands to its children: its own path followed by
      a `children` step. */
  function ChildListPathParts(parentPath: seq<nat>, fieldIndex: nat): seq<PathPart> {
    FieldPathParts(parentPath, fieldIndex) + [ChildrenStep]
  }

  lemma {:induction false} StepsAppend(p: seq<nat>, i: nat)
    ensures Steps(p + [i]) == Steps(p) + [Index(i), ChildrenStep]
  {
    if p != [] {
      assert (p + [i])[1..] == p[1..] + [i];
      StepsAppend(p[1..], i);
    }
  }

  /** The list a child hands on is addressed by the parent's indices extended
      with the child's own index. */
  lemma ChildPathExtendsParent(parentPath: seq<nat>, fieldIndex: nat)
    ensures ChildListPathParts(parentPath, fieldIndex) == ParentPathParts(parentPath + [fieldIndex])
  {
    StepsAppend(parentPath, fieldIndex);
  }

  /** The parts alternate: `fields`, then for each level its index and a
      `children` step. Hence `pathParts.length === 1` holds exactly for the
      root list, and `pathParts[1]` is the index of the root ancestor. */
  lemma {:induction false} PartsAlternate(p: seq<nat>)
    ensures |ParentPathParts(p)| == 1 + 2 * |p|
    ensures ParentPathParts(p)[0] == FieldsRoot
    ensures forall j :: 0 <= j < |p| ==>
              ParentPathParts(p)[2 * j + 1] == Index(p[j]) &&
              ParentPathParts(p)[2 * j + 2] == ChildrenStep
  {
    if p != [] {
      PartsAlternate(p[1..]);
      forall j | 0 <= j < |p|
        ensures ParentPathParts(p)[2 * j + 1] == Index(p[j])
        ensures ParentPathParts(p)[2 * j + 2] == ChildrenStep
      {
        if j > 0 {
          assert ParentPathParts(p)[2 * j + 1] == ParentPathParts(p[1..])[2 * (j - 1) + 1];
          assert ParentPathParts(p)[2 * j + 2] == ParentPathParts(p[1..])[2 * (j - 1) + 2];
        }
      }
    }
  }

  /** Reads index steps back from the parts after `fields`. */
  function StepsOf(parts: seq<PathPart>): Option<seq<nat>> {
    if parts == [] then Some([])
    else if |parts| >= 2 && parts[0].Index? && parts[1] == ChildrenStep then
      match StepsOf(parts[2..])
      case None => None
      case Some(rest) => Some([parts[0].i] + rest)
    else None
  }

  /** Reads a parent path back from its parts. */
  function PathOfParts(parts: seq<PathPart>): Option<seq<nat>> {
    if parts != [] && parts[0] == FieldsRoot then StepsOf(parts[1..]) else None
  }

  /** Distinct index sequences give distinct path strings: reading the parts
      back recovers the indices. */
  lemma {:induction false} PathRoundTrip(p: seq<nat>)
    ensures PathOfParts(ParentPathParts(p)) == Some(p)
  {
    StepsRoundTrip(p);
  }

  lemma {:induction false} StepsRoundTrip(p: seq<nat>)
    ensures StepsOf(Steps(p)) == Some(p)
  {
    if p != [] {
      StepsRoundTrip(p[1..]);
      var parts := Steps(p);
      assert parts[0] == Index(p[0]) && parts[1] == ChildrenStep;
      assert parts[2..] == Steps(p[1..]);
      assert [p[0]] + p[1..] == p;
    }
  }
}

=== FILE: preview.dfy ===
/** The live preview's projection of the field tree to a JSON object
    (`generateSchema` in src/components/JsonPreview.jsx). A JSON object is
    an association list in key-insertion order, the order in which the
    preview prints keys. */
module Preview {
  import opened Optional
  import opened Schema
  import opened Text

  /** The values the projection produces. `JNumeral(text)` is `Number(text)`
      for a numeral the model does not interpret (a fraction, an exponent
      form, or text that is not a number and gives NaN). */
  datatype Json =
    | JString(s: string)
    | JNumber(n: int)
    | JNumeral(text: string)
    | JObject(entries: seq<(string, Json)>)

  type Entries = seq<(string, Json)>

  /** The keys of an object, in order. */
  function KeysOf(o: Entries): (keys: seq<string>)
    ensures |keys| == |o|
    ensures forall i :: 0 <= i < |o| ==> keys[i] == o[i].0
  {
    if o == [] then [] else [o[0].0] + KeysOf(o[1..])
  }

  predicate UniqueKeys(o: Entries) {
    var keys := KeysOf(o);
    forall i, j :: 0 <= i < j < |keys| ==> keys[i] != keys[j]
  }

  /** The position of key `k`, or `|o|` when it is absent. */
  function IndexOfKey(o: Entries, k: string): (r: nat)
    ensures r <= |o|
    ensures r < |o| ==> o[r].0 == k
    ensures forall j :: 0 <= j < r ==> o[j].0 != k
  {
    if o == [] then 0
    else if o[0].0 == k then 0
    else 1 + IndexOfKey(o[1..], k)
  }

  /** The conditions above single out the index. */
  lemma IndexOfKeyIs(o: Entries, k: string, i: nat)
    requires i <= |o| && (i < |o| ==> o[i].0 == k)
    requires forall j :: 0 <= j < i ==> o[j].0 != k
    ensures IndexOfKey(o, k) == i
  {
  }

  /** `schema[k]`, undefined when the key is absent. */
  function Lookup(o: Entries, k: string): (r: Option<Json>)
    ensures r.Some? <==> k in KeysOf(o)
  {
    var i := IndexOfKey(o, k);
    assert k in KeysOf(o) ==> i < |o| by {
      if k in KeysOf(o) {
        var j :| 0 <= j < |o| && KeysOf(o)[j] == k;
      }
    }
    if i < |o| then Some(o[i].1) else None
  }

  /** `schema[k] = v`: overwrites the value of an existing key in its
      place, or adds the key at the end. */
  function Put(o: Entries, k: string, v: Json): (r: Entries)
    ensures k in KeysOf(o) ==> KeysOf(r) == KeysOf(o)
    ensures k !in KeysOf(o) ==> KeysOf(r) == KeysOf(o) + [k]
    ensures forall e :: e in r ==> e in o || e == (k, v)
  {
    var i := IndexOfKey(o, k);
    if i < |o| then o[i := (k, v)] else o + [(k, v)]
  }

  /** After `schema[k] = v` the key reads `v` and every other key reads
      what it read before; distinct keys stay distinct. */
  lemma PutLookup(o: Entries, k: string, v: Json)
    ensures Lookup(Put(o, k, v), k) == Some(v)
    ensures forall k' :: k' != k ==> Lookup(Put(o, k, v), k') == Lookup(o, k')
    ensures UniqueKeys(o) ==> UniqueKeys(Put(o, k, v))
  {
    var r := Put(o, k, v);
    var i := IndexOfKey(o, k);
    IndexOfKeyIs(r, k, i);
    forall k' | k' != k ensures Lookup(r, k') == Lookup(o, k') {
      var j := IndexOfKey(o, k');
      if j < |o| {
        IndexOfKeyIs(r, k', j);
      } else {
        IndexOfKeyIs(r, k', |r|);
      }
    }
  }

  /** `Number(defaultValue)` on a non-empty default of a number field. */
  function NumberOf(v: Value): Json {
    match v
    case Num(n) => JNumber(n)
    case Text(s) =>
      match NumberOfString(s)
      case Some(n) => JNumber(n)
      case None => JNumeral(s)
  }

  /** `String(defaultValue)` */
  function StringOf(v: Value): string {
    match v
    case Text(s) => s
    case Num(n) => IntToString(n)
  }

  /** The value bound to a field that is not projected as a nested object:
      its default coerced by its type, or the type's zero value when there
      is no default. */
  function ScalarValue(f: Field): (r: Json)
    ensures f.fieldType == NumberType ==> r.JNumber? || r.JNumeral?
    ensures f.fieldType != NumberType ==> r.JString?
    ensures f.defaultValue.None? ==> r == JNumber(0) || r == JString("")
    ensures f.fieldType == NumberType && f.defaultValue == Some(Text("")) ==> r == JNumber(0)
    ensures f.fieldType == NumberType && f.defaultValue.Some? && f.defaultValue.value.Num? ==>
              r == JNumber(f.defaultValue.value.n)
    ensures f.fieldType != NumberType && f.defaultValue.Some? && f.defaultValue.value.Text? ==>
              r == JString(f.defaultValue.value.s)
    ensures f.fieldType != NumberType && f.defaultValue.Some? && f.defaultValue.value.Num? ==>
              r == JString(IntToString(f.defaultValue.value.n))
  {
    match f.defaultValue
    case Some(v) =>
      if f.fieldType == NumberType then (if v == Text("") then JNumber(0) else NumberOf(v))
      else JString(StringOf(v))
    case None =>
      if f.fieldType == NumberType then JNumber(0) else JString("")
  }

  /** The value bound to a field's name: the projection of its children when
      it is nested and has a children list, its scalar value otherwise. */
  function FieldValue(f: Field): Json
    decreases f, 0
  {
    if f.fieldType == NestedType && f.children.Defined? then JObject(Generate([], f.children.items))
    else ScalarValue(f)
  }

  /** One `forEach` step: a blank name is skipped, any other name is bound
      to the field's value. */
  function Step(schema: Entries, f: Field): Entries
    decreases f, 1
  {
    if IsBlank(f.name) then schema else Put(schema, f.name, FieldValue(f))
  }

  /** `fields.forEach(...)` applied to `schema`, in order. */
  function Generate(schema: Entries, fs: seq<Field>): Entries
    decreases fs, 2
  {
    if fs == [] then schema else Generate(Step(schema, fs[0]), fs[1..])
  }

  /** `generateSchema(fields)`, which starts from `{}`. */
  function Project(fs: seq<Field>): Entries {
    Generate([], fs)
  }

  /** The root call `generateSchema(data.fields || [])`. */
  function ProjectRoot(fields: Option<seq<Field>>): (r: Json)
    ensures r.JObject?
    ensures fields.None? || fields == Some([]) ==> r == JObject([])
  {
    JObject(Project(fields.GetOr([])))
  }

  // ---------------------------------------------------------------------
  // The projection described without the fold

  /** Some field of `fs` carries the name `k`. */
  predicate NamedIn(fs: seq<Field>, k: string) {
    exists i :: 0 <= i < |fs| && fs[i].name == k
  }

  /** The index of the first field named `k`, or `|fs|` when there is none. */
  function FirstIndex(fs: seq<Field>, k: string): (r: nat)
    ensures NamedIn(fs, k) ==> r < |fs| && fs[r].name == k
    ensures forall j :: 0 <= j < r && j < |fs| ==> fs[j].name != k
    ensures !NamedIn(fs, k) ==> r == |fs|
  {
    if fs == [] then 0
    else if fs[0].name == k then 0
    else
      var r := 1 + FirstIndex(fs[1..], k);
      assert NamedIn(fs, k) ==> NamedIn(fs[1..], k) by {
        if NamedIn(fs, k) {
          var i :| 0 <= i < |fs| && fs[i].name == k;
          assert fs[1..][i - 1].name == k;
        }
      }
      r
  }

  lemma FirstIndexAppend(fs: seq<Field>, f: Field, k: string)
    requires NamedIn(fs, k)
    ensures FirstIndex(fs + [f], k) == FirstIndex(fs, k)
  {
    var r := FirstIndex(fs, k);
    assert (fs + [f])[r].name == k;
  }

  /** Projecting one more field is one more step on the projection. */
  lemma {:induction false} GenerateAppend(schema: Entries, fs: seq<Field>, f: Field)
    ensures Generate(schema, fs + [f]) == Step(Generate(schema, fs), f)
    decreases |fs|
  {
    if fs != [] {
      assert (fs + [f])[1..] == fs[1..] + [f];
      GenerateAppend(Step(schema, fs[0]), fs[1..], f);
    }
  }

  lemma NamedInAppend(fs: seq<Field>, f: Field, k: string)
    ensures NamedIn(fs + [f], k) <==> NamedIn(fs, k) || f.name == k
  {
    if NamedIn(fs, k) {
      var i :| 0 <= i < |fs| && fs[i].name == k;
      assert (fs + [f])[i].name == k;
    }
    if f.name == k {
      assert (fs + [f])[|fs|].name == k;
    }
  }

  /** What one step does to the key sequence. */
  lemma StepKeys(o: Entries, f: Field)
    ensures IsBlank(f.name) || f.name in KeysOf(o) ==> KeysOf(Step(o, f)) == KeysOf(o)
    ensures !IsBlank(f.name) && f.name !in KeysOf(o) ==> KeysOf(Step(o, f)) == KeysOf(o) + [f.name]
  {
  }

  /** Projecting a non-empty list is one step on the projection of all but
      its last field. */
  lemma ProjectSnoc(fs: seq<Field>)
    requires fs != []
    ensures Project(fs) == Step(Project(fs[..|fs| - 1]), fs[|fs| - 1])
  {
    assert fs == fs[..|fs| - 1] + [fs[|fs| - 1]];
    GenerateAppend([], fs[..|fs| - 1], fs[|fs| - 1]);
  }

  /** The inductive steps of the three lemmas below, each stated on the
      last field of a non-empty list. */
  lemma KeySetSnoc(fs: seq<Field>)
    requires fs != []
    requires KeysAreNames(Project(fs[..|fs| - 1]), fs[..|fs| - 1])
    ensures KeysAreNames(Project(fs), fs)
  {
    var init, f := fs[..|fs| - 1], fs[|fs| - 1];
    assert init + [f] == fs;
    ProjectSnoc(fs);
    StepKeySet(Project(init), init, f);
  }

  lemma KeyOrderSnoc(fs: seq<Field>)
    requires fs != []
    requires KeysAreNames(Project(fs[..|fs| - 1]), fs[..|fs| - 1])
    requires OrderedByFirstOccurrence(KeysOf(Project(fs[..|fs| - 1])), fs[..|fs| - 1])
    ensures OrderedByFirstOccurrence(KeysOf(Project(fs)), fs)
  {
    var init, f := fs[..|fs| - 1], fs[|fs| - 1];
    assert init + [f] == fs;
    ProjectSnoc(fs);
    StepKeyOrder(Project(init), init, f);
  }

  lemma ValueSnoc(fs: seq<Field>, k: string)
    requires fs != []
    ensures ValueIsLast(Project(fs[..|fs| - 1]), fs[..|fs| - 1], k) ==> ValueIsLast(Project(fs), fs, k)
  {
    var init, f := fs[..|fs| - 1], fs[|fs| - 1];
    if ValueIsLast(Project(init), init, k) {
      assert init + [f] == fs;
      ProjectSnoc(fs);
      StepValue(Project(init), init, f, k);
    }
  }

  /** The keys of `o` are exactly the non-blank names of `fs`. */
  ghost predicate KeysAreNames(o: Entries, fs: seq<Field>) {
    forall k :: k in KeysOf(o) <==> NamedIn(fs, k) && !IsBlank(k)
  }

  lemma StepKeySet(o: Entries, init: seq<Field>, f: Field)
    requires KeysAreNames(o, init)
    ensures KeysAreNames(Step(o, f), init + [f])
  {
    StepKeys(o, f);
    forall k ensures NamedIn(init + [f], k) <==> NamedIn(init, k) || f.name == k {
      NamedInAppend(init, f, k);
    }
  }

  /** The keys of the projection are exactly the non-blank names of the
      fields. */
  lemma {:induction false} ProjectKeySet(fs: seq<Field>)
    ensures KeysAreNames(Project(fs), fs)
    decreases |fs|
  {
    if fs != [] {
      ProjectKeySet(fs[..|fs| - 1]);
      KeySetSnoc(fs);
    }
  }

  /** The keys of `o` are ordered by where their name first occurs in `fs`. */
  predicate OrderedByFirstOccurrence(keys: seq<string>, fs: seq<Field>) {
    forall a, b :: 0 <= a < b < |keys| ==> FirstIndex(fs, keys[a]) < FirstIndex(fs, keys[b])
  }

  lemma StepKeyOrder(o: Entries, init: seq<Field>, f: Field)
    requires KeysAreNames(o, init)
    requires OrderedByFirstOccurrence(KeysOf(o), init)
    ensures OrderedByFirstOccurrence(KeysOf(Step(o, f)), init + [f])
  {
    StepKeys(o, f);
    KeyOrderExtend(KeysOf(o), KeysOf(Step(o, f)), init, f);
  }

  lemma KeyOrderExtend(keys: seq<string>, keys': seq<string>, init: seq<Field>, f: Field)
    requires forall k :: k in keys ==> NamedIn(init, k)
    requires OrderedByFirstOccurrence(keys, init)
    requires keys' == keys || (keys' == keys + [f.name] && !NamedIn(init, f.name))
    ensures OrderedByFirstOccurrence(keys', init + [f])
  {
    var fs := init + [f];
    forall a | 0 <= a < |keys| ensures FirstIndex(fs, keys[a]) == FirstIndex(init, keys[a]) {
      assert keys[a] in keys;
      FirstIndexAppend(init, f, keys[a]);
    }
    if keys' != keys {
      NamedInAppend(init, f, f.name);
      assert FirstIndex(fs, f.name) == |init|;
      forall a | 0 <= a < |keys| ensures FirstIndex(fs, keys[a]) < |init| {
        assert keys[a] in keys;
      }
      forall a, b | 0 <= a < b < |keys'| ensures FirstIndex(fs, keys'[a]) < FirstIndex(fs, keys'[b]) {
        if b < |keys| {
          assert keys'[a] == keys[a] && keys'[b] == keys[b];
        } else {
          assert keys'[a] == keys[a];
        }
      }
    }
  }

  /** The keys of the projection are ordered by where their name first
      occurs among the fields. */
  lemma {:induction false} ProjectKeyOrder(fs: seq<Field>)
    ensures OrderedByFirstOccurrence(KeysOf(Project(fs)), fs)
    decreases |fs|
  {
    if fs != [] {
      var init := fs[..|fs| - 1];
      ProjectKeyOrder(init);
      ProjectKeySet(init);
      KeyOrderSnoc(fs);
    }
  }

  /** No key occurs twice in the projection. */
  lemma ProjectUniqueKeys(fs: seq<Field>)
    ensures UniqueKeys(Project(fs))
  {
    ProjectKeyOrder(fs);
  }

  /** What one step does to the value under a key. */
  lemma StepLookup(o: Entries, f: Field, k: string)
    ensures Lookup(Step(o, f), k) == if f.name == k && !IsBlank(k) then Some(FieldValue(f)) else Lookup(o, k)
  {
    if !IsBlank(f.name) {
      PutLookup(o, f.name, FieldValue(f));
    }
  }

  /** `fs[i]` is the last field of `fs` named `k`. */
  predicate LastNamed(fs: seq<Field>, i: int, k: string) {
    0 <= i < |fs| && fs[i].name == k && forall j :: i < j < |fs| ==> fs[j].name != k
  }

  /** The value `o` holds under `k` is that of the last field of `fs` named
      `k`, and there is none when no field is, or when `k` is blank. */
  ghost predicate ValueIsLast(o: Entries, fs: seq<Field>, k: string) {
    && (!NamedIn(fs, k) || IsBlank(k) ==> Lookup(o, k) == None)
    && (forall i :: LastNamed(fs, i, k) && !IsBlank(k) ==> Lookup(o, k) == Some(FieldValue(fs[i])))
  }

  lemma StepValue(o: Entries, init: seq<Field>, f: Field, k: string)
    requires ValueIsLast(o, init, k)
    ensures ValueIsLast(Step(o, f), init + [f], k)
  {
    var fs := init + [f];
    StepLookup(o, f, k);
    NamedInAppend(init, f, k);
    forall i | LastNamed(fs, i, k) && !IsBlank(k) ensures Lookup(Step(o, f), k) == Some(FieldValue(fs[i])) {
      if i < |init| {
        assert f.name != k by { assert fs[|init|] == f; }
        assert LastNamed(init, i, k) by {
          forall j | i < j < |init| ensures init[j].name != k {
            assert fs[j] == init[j];
          }
        }
        assert fs[i] == init[i];
      }
    }
  }

  /** The value under a key is that of the LAST field carrying the name; a
      name that no field carries, or a blank one, has no value. */
  lemma {:induction false} ProjectValues(fs: seq<Field>, k: string)
    ensures !NamedIn(fs, k) || IsBlank(k) ==> Lookup(Project(fs), k) == None
    ensures forall i :: LastNamed(fs, i, k) && !IsBlank(k) ==> Lookup(Project(fs), k) == Some(FieldValue(fs[i]))
    decreases |fs|
  {
    if fs != [] {
      ProjectValues(fs[..|fs| - 1], k);
      ValueSnoc(fs, k);
    }
  }

  // ---------------------------------------------------------------------
  // Blank names at every depth

  /** Every key of `j`, at every depth, lies in `allowed`. */
  predicate KeysWithin(j: Json, allowed: set<string>)
    decreases j
  {
    match j
    case JObject(es) =>
      forall i :: 0 <= i < |es| ==> es[i].0 in allowed && KeysWithin(es[i].1, allowed)
    case _ => true
  }

  /** The names of all fields of the tree, at every depth. */
  function TreeNames(fs: seq<Field>): set<string>
    decreases fs
  {
    if fs == [] then {}
    else
      var below := match fs[0].children
        case Undefined => {}
        case Defined(cs) => TreeNames(cs);
      {fs[0].name} + below + TreeNames(fs[1..])
  }

  function NonBlank(names: set<string>): set<string> {
    set k | k in names && !IsBlank(k)
  }

  lemma {:induction false} FieldValueKeys(f: Field, allowed: set<string>)
    requires NonBlank(TreeNames(ChildList(f.children))) <= allowed
    ensures KeysWithin(FieldValue(f), allowed)
    decreases f, 0
  {
    if f.fieldType == NestedType && f.children.Defined? {
      GenerateKeys([], f.children.items, allowed);
    }
  }

  lemma {:induction false} GenerateKeys(schema: Entries, fs: seq<Field>, allowed: set<string>)
    requires KeysWithin(JObject(schema), allowed)
    requires NonBlank(TreeNames(fs)) <= allowed
    ensures KeysWithin(JObject(Generate(schema, fs)), allowed)
    decreases fs, 1
  {
    if fs != [] {
      var f := fs[0];
      assert NonBlank(TreeNames(ChildList(f.children))) <= NonBlank(TreeNames(fs));
      assert NonBlank(TreeNames(fs[1..])) <= NonBlank(TreeNames(fs));
      FieldValueKeys(f, allowed);
      var next := Step(schema, f);
      assert KeysWithin(JObject(next), allowed) by {
        if !IsBlank(f.name) {
          assert f.name in NonBlank(TreeNames(fs));
          forall i | 0 <= i < |next| ensures next[i].0 in allowed && KeysWithin(next[i].1, allowed) {
            assert next[i] in next;
            if next[i] != (f.name, FieldValue(f)) {
              var e := next[i];
              var m :| 0 <= m < |schema| && schema[m] == e;
            }
          }
        }
      }
      GenerateKeys(next, fs[1..], allowed);
    }
  }

  /** At every depth of the projection each key is the name of some field
      of the tree and is not blank: blank-named fields contribute nothing. */
  lemma ProjectKeysAtAllDepths(fs: seq<Field>)
    ensures KeysWithin(JObject(Project(fs)), NonBlank(TreeNames(fs)))
  {
    GenerateKeys([], fs, NonBlank(TreeNames(fs)));
  }

  // ---------------------------------------------------------------------
  // Coercions

  /** A number default typed in as the text `String(n)` projects like the
      number `n` the factory or a type change stores. */
  lemma NumberTextAgreesWithNumber(f: Field, n: int)
    requires f.fieldType == NumberType
    ensures IsExactInteger(n) ==>
              FieldValue(f.(defaultValue := Some(Text(IntToString(n)))))
                == FieldValue(f.(defaultValue := Some(Num(n))))
  {
    if IsExactInteger(n) {
      IntStringRoundTrip(n);
      IntStringEnds(n);
      NumeralText(f, IntToString(n), n);
    }
  }

  /** A number field whose default is a non-empty text that reads as `n`
      projects as if its default were the number `n`. */
  lemma NumeralText(f: Field, t: string, n: int)
    requires f.fieldType == NumberType && t != [] && NumberOfString(t) == Some(n)
    ensures FieldValue(f.(defaultValue := Some(Text(t)))) == FieldValue(f.(defaultValue := Some(Num(n))))
  {
    var g := f.(defaultValue := Some(Text(t)));
    assert g.defaultValue.value != Text("");
    assert ScalarValue(g) == NumberOf(Text(t)) == JNumber(n);
  }

  // ---------------------------------------------------------------------
  // Worked examples

  function StringField(id: int, name: string, text: string): Field {
    Field(id, name, StringType, Some(Text(text)), Undefined)
  }

  lemma NotBlank(name: string)
    requires name != [] && !IsJsWhitespace(name[0])
    ensures !IsBlank(name)
  {
    BlankIff(name);
  }

  /** A one-field list projects to that field's single binding. */
  lemma ProjectOne(f: Field)
    requires !IsBlank(f.name)
    ensures Project([f]) == [(f.name, FieldValue(f))]
  {
    GenerateAppend([], [], f);
    assert [] + [f] == [f];
  }

  // The ids below are parameters: the source draws them at random, and the
  // projection never reads them.

  lemma ExampleTitle(id: int)
    ensures Project([StringField(id, "title", "Hello")]) == [("title", JString("Hello"))]
  {
    NotBlank("title");
    ProjectOne(StringField(id, "title", "Hello"));
  }

  lemma ExampleEmptyNumber(id: int)
    ensures Project([Field(id, "age", NumberType, Some(Text("")), Undefined)]) == [("age", JNumber(0))]
  {
    NotBlank("age");
    ProjectOne(Field(id, "age", NumberType, Some(Text("")), Undefined));
  }

  lemma ExampleBlankNames(id1: int, id2: int)
    ensures Project([StringField(id1, "", "x"), StringField(id2, " \t", "y")]) == []
  {
    BlankIff(" \t");
    ProjectBlankPair(StringField(id1, "", "x"), StringField(id2, " \t", "y"));
  }

  lemma ExampleNested(id1: int, id2: int)
    ensures Project([Field(id1, "address", NestedType, None, Defined([StringField(id2, "city", "NYC")]))])
         == [("address", JObject([("city", JString("NYC"))]))]
  {
    NotBlank("address");
    NotBlank("city");
    StringFieldValue(id2, "city", "NYC");
    ProjectNestedOne(Field(id1, "address", NestedType, None, Defined([StringField(id2, "city", "NYC")])),
                     StringField(id2, "city", "NYC"));
  }

  /** A nested field with a single child projects to an object holding that
      child's one binding. */
  lemma ProjectNestedOne(f: Field, c: Field)
    requires !IsBlank(f.name) && !IsBlank(c.name)
    requires f.fieldType == NestedType && f.children == Defined([c])
    ensures Project([f]) == [(f.name, JObject([(c.name, FieldValue(c))]))]
  {
    ProjectOne(c);
    assert FieldValue(f) == JObject(Project([c]));
    ProjectOne(f);
  }

  /** A nested field with an empty children list projects to `{}`. */
  lemma ExampleEmptyChildren(id: int)
    ensures Project([Field(id, "empty", NestedType, None, Defined([]))]) == [("empty", JObject([]))]
  {
    NotBlank("empty");
    ProjectOne(Field(id, "empty", NestedType, None, Defined([])));
  }

  /** A nested field whose children are undefined falls back to `''`. */
  lemma ExampleUndefinedChildren(id: int)
    ensures Project([Field(id, "lost", NestedType, None, Undefined)]) == [("lost", JString(""))]
  {
    NotBlank("lost");
    ProjectOne(Field(id, "lost", NestedType, None, Undefined));
  }

  lemma StringFieldValue(id: int, name: string, text: string)
    ensures FieldValue(StringField(id, name, text)) == JString(text)
  {
  }

  lemma StepNewKey(o: Entries, f: Field)
    requires !IsBlank(f.name)
    requires forall j :: 0 <= j < |o| ==> o[j].0 != f.name
    ensures Step(o, f) == o + [(f.name, FieldValue(f))]
  {
    IndexOfKeyIs(o, f.name, |o|);
  }

  lemma StepKnownKey(o: Entries, f: Field, i: nat)
    requires !IsBlank(f.name)
    requires i < |o| && o[i].0 == f.name
    requires forall j :: 0 <= j < i ==> o[j].0 != f.name
    ensures Step(o, f) == o[i := (f.name, FieldValue(f))]
  {
    IndexOfKeyIs(o, f.name, i);
  }

  /** A two-field list projects as one more step on the first field's
      projection. */
  lemma ProjectPair(f1: Field, f2: Field)
    ensures Project([f1, f2]) == Step(Project([f1]), f2)
  {
    ProjectSnoc([f1, f2]);
    assert [f1, f2][..1] == [f1];
  }

  /** Two fields with blank names contribute no key. */
  lemma ProjectBlankPair(f1: Field, f2: Field)
    requires IsBlank(f1.name) && IsBlank(f2.name)
    ensures Project([f1, f2]) == []
  {
    ProjectPair(f1, f2);
    ProjectSnoc([f1]);
    assert [f1][..0] == [];
  }

  /** Two fields with distinct non-blank names give two keys in order. */
  lemma ExampleTwoNames(id1: int, id2: int, a: string, b: string, x: string, y: string)
    requires !IsBlank(a) && !IsBlank(b) && a != b
    ensures Project([StringField(id1, a, x), StringField(id2, b, y)]) == [(a, JString(x)), (b, JString(y))]
  {
    var f1, f2 := StringField(id1, a, x), StringField(id2, b, y);
    StringFieldValue(id1, a, x);
    StringFieldValue(id2, b, y);
    ProjectOne(f1);
    StepNewKey([(a, JString(x))], f2);
    ProjectPair(f1, f2);
  }

  /** A repeated name keeps its first position and takes the last value:
      fields named `a`, `b`, `a` give the keys `a`, `b` with `a` bound to the
      third field's value. */
  lemma ExampleDuplicateNames(id1: int, id2: int, id3: int, a: string, b: string, x: string, y: string, z: string)
    requires !IsBlank(a) && !IsBlank(b) && a != b
    ensures Project([StringField(id1, a, x), StringField(id2, b, y), StringField(id3, a, z)])
         == [(a, JString(z)), (b, JString(y))]
  {
    var f1, f2, f3 := StringField(id1, a, x), StringField(id2, b, y), StringField(id3, a, z);
    ExampleTwoNames(id1, id2, a, b, x, y);
    StringFieldValue(id3, a, z);
    StepKnownKey([(a, JString(x)), (b, JString(y))], f3, 0);
    GenerateAppend([], [f1, f2], f3);
    assert [f1, f2] + [f3] == [f1, f2, f3];
  }
}

=== FILE: schema.dfy ===
/** The schema field record and its factory (src/types/schema.js,
    src/types/schema.ts). */
module Schema {
  import opened Optional

  /** `FIELD_TYPES`: the closed set of field types. */
  datatype FieldType = StringType | NumberType | NestedType

  /** `defaultValue?: string | number`: what the user typed (a string) or a
      number put there by the factory or a type change. Only integral
      numbers are modelled. */
  datatype Value = Text(s: string) | Num(n: int)

  /** `children?: SchemaField[]`: undefined, or a (possibly empty) list. */
  datatype Children = Undefined | Defined(items: seq<Field>)

  /** One node of the schema tree. `id` is an opaque number chosen by the
      caller of the factory. */
  datatype Field = Field(
    id: int,
    name: string,
    fieldType: FieldType,
    defaultValue: Option<Value>,
    children: Children)

  /** `children || []` */
  function ChildList(c: Children): seq<Field> {
    match c
    case Undefined => []
    case Defined(items) => items
  }

  /** Exactly one of `defaultValue` and `children` is defined. */
  predicate ExactlyOneDefined(f: Field) {
    f.defaultValue.Some? != f.children.Defined?
  }

  /** The field's type dictates which of the two is defined: `children` for
      a nested field, `defaultValue` for a scalar one. */
  predicate ShapedByType(f: Field) {
    && ExactlyOneDefined(f)
    && (f.children.Defined? <==> f.fieldType == NestedType)
  }

  /** `ShapedByType` holds at this node and at every node below it. */
  predicate WellShaped(f: Field)
    decreases f
  {
    && ShapedByType(f)
    && (f.children.Defined? ==>
          forall i :: 0 <= i < |f.children.items| ==> WellShaped(f.children.items[i]))
  }

  predicate AllWellShaped(fs: seq<Field>) {
    forall i :: 0 <= i < |fs| ==> WellShaped(fs[i])
  }

  /** `createDefaultField(type = FIELD_TYPES.STRING)`; the source draws `id`
      from the clock and a random number, here it is a parameter. */
  function CreateDefaultField(id: int, requested: Option<FieldType>): (f: Field)
    ensures f.id == id && f.name == ""
    ensures f.fieldType == requested.GetOr(StringType)
    ensures f.fieldType == StringType ==> f.defaultValue == Some(Text("")) && f.children == Undefined
    ensures f.fieldType == NumberType ==> f.defaultValue == Some(Num(0)) && f.children == Undefined
    ensures f.fieldType == NestedType ==> f.defaultValue == None && f.children == Defined([])
    ensures WellShaped(f)
  {
    var t := requested.GetOr(StringType);
    Field(
      id,
      "",
      t,
      if t == StringType then Some(Text("")) else if t == NumberType then Some(Num(0)) else None,
      if t == NestedType then Defined([]) else Undefined)
  }
}

=== FILE: text.dfy ===
/** The few JavaScript string built-ins the schema builder relies on:
    `String.prototype.trim`, `String(n)` on an integer and `Number(s)`
    restricted to decimal-integer numerals. */
module Text {
  import opened Optional

  /** JavaScript's WhiteSpace and LineTerminator code points: the characters
      `trim` removes and `Number` ignores around a numeral. */
  predicate IsJsWhitespace(c: char) {
    var n := c as int;
    || 0x09 <= n <= 0x0D          // tab, line feed, vertical tab, form feed, carriage return
    || n == 0x20 || n == 0xA0 || n == 0x1680
    || 0x2000 <= n <= 0x200A      // en quad .. hair space
    || n == 0x2028 || n == 0x2029 // line and paragraph separators
    || n == 0x202F || n == 0x205F || n == 0x3000
    || n == 0xFEFF                // byte order mark
  }

  predicate AllWhitespace(s: string) {
    forall i :: 0 <= i < |s| ==> IsJsWhitespace(s[i])
  }

  /** `s.trimStart()` */
  function TrimStart(s: string): (r: string)
    ensures |r| <= |s| && r == s[|s| - |r|..]
    ensures AllWhitespace(s[..|s| - |r|])
    ensures r == [] || !IsJsWhitespace(r[0])
  {
    if s != [] && IsJsWhitespace(s[0]) then
      var r := TrimStart(s[1..]);
      DropLeadingSpace(s, r);
      r
    else s
  }

  /** `s.trimEnd()` */
  function TrimEnd(s: string): (r: string)
    ensures |r| <= |s| && r == s[..|r|]
    ensures AllWhitespace(s[|r|..])
    ensures r == [] || !IsJsWhitespace(r[|r| - 1])
  {
    if s != [] && IsJsWhitespace(s[|s| - 1]) then
      var r := TrimEnd(s[..|s| - 1]);
      DropTrailingSpace(s, r);
      r
    else s
  }

  /** One step of `TrimStart`: a white-space character in front of a
      stripped prefix is stripped too. */
  lemma DropLeadingSpace(s: string, r: string)
    requires s != [] && IsJsWhitespace(s[0])
    requires |r| <= |s| - 1 && r == s[1..][|s| - 1 - |r|..]
    requires AllWhitespace(s[1..][..|s| - 1 - |r|])
    ensures r == s[|s| - |r|..] && AllWhitespace(s[..|s| - |r|])
  {
    var k := |s| - |r|;
    assert s[1..][k - 1..] == s[k..];
    forall i | 0 <= i < k
      ensures IsJsWhitespace(s[..k][i])
    {
      if i > 0 {
        assert s[..k][i] == s[1..][..k - 1][i - 1];
      }
    }
  }

  /** One step of `TrimEnd`: a white-space character after a stripped
      suffix is stripped too. */
  lemma DropTrailingSpace(s: string, r: string)
    requires s != [] && IsJsWhitespace(s[|s| - 1])
    requires |r| <= |s| - 1 && r == s[..|s| - 1][..|r|]
    requires AllWhitespace(s[..|s| - 1][|r|..])
    ensures r == s[..|r|] && AllWhitespace(s[|r|..])
  {
    forall i | 0 <= i < |s| - |r|
      ensures IsJsWhitespace(s[|r|..][i])
    {
      if i < |s| - 1 - |r| {
        assert s[|r|..][i] == s[..|s| - 1][|r|..][i];
      }
    }
  }

  /** `s.trim()` */
  function Trim(s: string): string {
    TrimEnd(TrimStart(s))
  }

  /** Trimming leaves nothing exactly when every character is white space. */
  lemma TrimEmptyIff(s: string)
    ensures Trim(s) == [] <==> AllWhitespace(s)
  {
    var t := TrimStart(s);
    if Trim(s) == [] {
      assert AllWhitespace(t[0..]);
      assert s[..|s| - |t|] == s;
    } else if t != [] {
      assert t[0] == s[|s| - |t|];
    }
  }

  /** The name test of the preview, `!name || name.trim() === ''`: a blank
      name is empty or consists of white space only. */
  predicate IsBlank(name: string) {
    name == [] || Trim(name) == []
  }

  lemma BlankIff(name: string)
    ensures IsBlank(name) <==> AllWhitespace(name)
  {
    TrimEmptyIff(name);
  }

  // ---------------------------------------------------------------------
  // Decimal numerals

  predicate IsDigit(c: char) {
    '0' <= c <= '9'
  }

  predicate AllDigits(s: string) {
    forall i :: 0 <= i < |s| ==> IsDigit(s[i])
  }

  function DigitChar(d: nat): (c: char)
    requires d < 10
    ensures IsDigit(c) && c as int - '0' as int == d
  {
    (d + '0' as int) as char
  }

  /** A digit string without leading zeros: `0` itself, or digits that do
      not start with `0`. */
  predicate CanonicalDigits(d: string) {
    d != [] && AllDigits(d) && (d[0] == '0' ==> |d| == 1)
  }

  /** The spelling `String` gives an integer: canonical digits, optionally
      preceded by `-` when the digits are not `0`. */
  predicate CanonicalNumeral(s: string) {
    || CanonicalDigits(s)
    || (|s| >= 2 && s[0] == '-' && CanonicalDigits(s[1..]) && s[1] != '0')
  }

  /** Decimal digits of `n`, most significant first, without leading zeros. */
  function NatToDigits(n: nat): (s: string)
    ensures AllDigits(s) && |s| > 0
    ensures |s| == 1 <==> n < 10
    ensures s[0] == '0' <==> n == 0
    ensures CanonicalDigits(s)
  {
    if n < 10 then [DigitChar(n)] else NatToDigits(n / 10) + [DigitChar(n % 10)]
  }

  /** `String(n)` for an integer number `n`: a minus sign exactly for a
      negative `n`, then the digits of its magnitude. */
  function IntToString(n: int): (r: string)
    ensures CanonicalNumeral(r)
    ensures r[0] == '-' <==> n < 0
  {
    if n < 0 then
      var d := NatToDigits(-n);
      assert (['-'] + d)[1..] == d;
      ['-'] + d
    else NatToDigits(n)
  }

  function DigitValue(c: char): nat
    requires IsDigit(c)
  {
    c as int - '0' as int
  }

  /** The value of a string of decimal digits. */
  function DigitsValue(s: string): nat
    requires AllDigits(s)
  {
    if s == [] then 0
    else DigitsValue(s[..|s| - 1]) * 10 + DigitValue(s[|s| - 1])
  }

  /** A decimal-integer numeral, `[+-]?[0-9]+`, read as an integer. */
  function ParseInteger(t: string): (r: Option<int>)
    ensures r.Some? <==>
              (AllDigits(t) && t != []) ||
              (|t| >= 2 && (t[0] == '-' || t[0] == '+') && AllDigits(t[1..]))
  {
    if t != [] && (t[0] == '-' || t[0] == '+') then
      if |t| >= 2 && AllDigits(t[1..]) then
        var v: int := DigitsValue(t[1..]);
        Some(if t[0] == '-' then -v else v)
      else None
    else if t != [] && AllDigits(t) then Some(DigitsValue(t))
    else None
  }

  /** 2^53: every integer of at most this magnitude is a double, so
      `Number` reads its numeral exactly; a larger numeral is rounded to a
      nearby double. */
  const MaxExactInteger: int := 0x20_0000_0000_0000

  predicate IsExactInteger(n: int) {
    -MaxExactInteger <= n <= MaxExactInteger
  }

  /** `Number(s)` on the numerals the model interprets: after trimming, the
      empty string is 0 and a decimal-integer numeral of at most 2^53 in
      magnitude is its value. Any other text (fractions, exponents,
      hexadecimal, `Infinity`, numerals `Number` would round, non-numerals
      that give NaN) yields None: the model leaves it uninterpreted. */
  function NumberOfString(s: string): (r: Option<int>)
    ensures AllWhitespace(s) ==> r == Some(0)
    ensures r.Some? ==> IsExactInteger(r.value)
    ensures !AllWhitespace(s) && r.Some? ==> ParseInteger(Trim(s)) == r
    ensures !AllWhitespace(s) && ParseInteger(Trim(s)).Some? && IsExactInteger(ParseInteger(Trim(s)).value) ==>
              r == ParseInteger(Trim(s))
  {
    TrimEmptyIff(s);
    var t := Trim(s);
    if t == [] then Some(0)
    else
      match ParseInteger(t)
      case Some(v) => if IsExactInteger(v) then Some(v) else None
      case None => None
  }

  lemma {:induction false} DigitsRoundTrip(n: nat)
    ensures DigitsValue(NatToDigits(n)) == n
  {
    if n >= 10 {
      DigitsRoundTrip(n / 10);
      var s := NatToDigits(n);
      assert s[..|s| - 1] == NatToDigits(n / 10);
    }
  }

  /** Canonical digits are the digits of their own value. */
  lemma {:induction false} CanonicalDigitsUnique(d: string)
    requires CanonicalDigits(d)
    ensures NatToDigits(DigitsValue(d)) == d
  {
    var last := d[|d| - 1];
    assert IsDigit(last);
    if |d| == 1 {
      assert d == [last];
    } else {
      var p := d[..|d| - 1];
      assert p[0] == d[0];
      CanonicalDigitsUnique(p);
      var v := DigitsValue(d);
      assert v / 10 == DigitsValue(p) && v % 10 == DigitValue(last);
      assert p + [last] == d;
    }
  }

  /** `String` is the only canonical spelling: a canonical numeral reads as
      an integer whose `String` is that numeral again. */
  lemma CanonicalNumeralUnique(s: string)
    requires CanonicalNumeral(s)
    ensures ParseInteger(s).Some? && IntToString(ParseInteger(s).value) == s
  {
    if CanonicalDigits(s) {
      UnsignedDigits(s);
      CanonicalDigitsUnique(s);
    } else {
      var d := s[1..];
      assert s == ['-'] + d;
      SignedDigits(d);
      CanonicalDigitsUnique(d);
    }
  }

  /** Text without white space at either end is its own trim. */
  lemma TrimUntouched(s: string)
    requires s != [] && !IsJsWhitespace(s[0]) && !IsJsWhitespace(s[|s| - 1])
    ensures Trim(s) == s
  {
    assert TrimStart(s) == s;
  }

  lemma TrimStartSpace(u: string)
    requires u != [] && !IsJsWhitespace(u[0])
    ensures TrimStart([' '] + u) == u
  {
    assert ([' '] + u)[1..] == u;
  }

  lemma TrimEndSpace(t: string)
    requires t != [] && !IsJsWhitespace(t[|t| - 1])
    ensures TrimEnd(t + [' ']) == t
  {
    assert (t + [' '])[..|t|] == t;
  }

  /** One space on either side of a numeral is trimmed away. */
  lemma TrimPadding(t: string)
    requires t != [] && !IsJsWhitespace(t[0]) && !IsJsWhitespace(t[|t| - 1])
    ensures Trim([' '] + t + [' ']) == t
  {
    var u := t + [' '];
    assert [' '] + t + [' '] == [' '] + u;
    TrimStartSpace(u);
    TrimEndSpace(t);
  }

  /** Digits without a sign read as their value. */
  lemma UnsignedDigits(d: string)
    requires d != [] && AllDigits(d)
    ensures ParseInteger(d) == Some(DigitsValue(d) as int)
  {
    assert IsDigit(d[0]);
  }

  /** A minus sign followed by digits reads as the negated digit value. */
  lemma SignedDigits(d: string)
    requires d != [] && AllDigits(d)
    ensures ParseInteger(['-'] + d) == Some(-(DigitsValue(d) as int))
  {
    assert (['-'] + d)[1..] == d;
  }

  /** `String(n)` starts with a sign or a digit and ends with a digit. */
  lemma IntStringEnds(n: int)
    ensures var s := IntToString(n);
      s != [] && !IsJsWhitespace(s[0]) && !IsJsWhitespace(s[|s| - 1])
  {
    var d := NatToDigits(if n < 0 then -n else n);
    assert IsDigit(d[0]) && IsDigit(d[|d| - 1]);
  }

  /** The numeral `String(n)` reads back as `n`. */
  lemma ParseIntString(n: int)
    ensures ParseInteger(IntToString(n)) == Some(n)
  {
    var m: nat := if n < 0 then -n else n;
    var d := NatToDigits(m);
    DigitsRoundTrip(m);
    if n < 0 {
      SignedDigits(d);
    } else {
      UnsignedDigits(d);
    }
  }

  /** `Number(String(n)) === n` for every integer `n` a double holds
      exactly; any larger numeral is left uninterpreted. */
  lemma IntStringRoundTrip(n: int)
    ensures IsExactInteger(n) ==> NumberOfString(IntToString(n)) == Some(n)
    ensures !IsExactInteger(n) ==> NumberOfString(IntToString(n)) == None
  {
    IntStringEnds(n);
    TrimUntouched(IntToString(n));
    ParseIntString(n);
    TrimEmptyIff(IntToString(n));
  }

  /** `Number(' ' + String(n) + ' ') === n`: the white space around a
      numeral, a sign included, is ignored. */
  lemma PaddedIntString(n: int)
    ensures IsExactInteger(n) ==> NumberOfString([' '] + IntToString(n) + [' ']) == Some(n)
    ensures !IsExactInteger(n) ==> NumberOfString([' '] + IntToString(n) + [' ']) == None
  {
    IntStringEnds(n);
    TrimPadding(IntToString(n));
    ParseIntString(n);
    TrimEmptyIff([' '] + IntToString(n) + [' ']);
  }
}

=== FILE: tree.dfy ===
/** Addressing and updating one node of the schema tree by its index path;
    this stands in for the form library's `getValues`/`setValue` on a dotted
    path. A node path lists the index taken at every level, root first. */
module Tree {
  import opened Optional
  import opened Schema

  /** `list.filter((_, index) => index !== drop)`, built element by element
      in index order. */
  function WithoutIndex<T>(s: seq<T>, drop: nat): (r: seq<T>)
    ensures drop < |s| ==> r == s[..drop] + s[drop + 1..]
    ensures drop >= |s| ==> r == s
  {
    if s == [] then []
    else WithoutIndex(s[..|s| - 1], drop) + (if |s| - 1 == drop then [] else [s[|s| - 1]])
  }

  /** The node at `path`, if every step exists and every node passed through
      has defined children. */
  function Get(fs: seq<Field>, path: seq<nat>): Option<Field>
    decreases |path|
  {
    if path == [] || path[0] >= |fs| then None
    else if |path| == 1 then Some(fs[path[0]])
    else
      match fs[path[0]].children
      case Undefined => None
      case Defined(cs) => Get(cs, path[1..])
  }

  /** Replaces the node at `path` by `g` of it; nothing changes when there is
      no such node. */
  function UpdateAt(fs: seq<Field>, path: seq<nat>, g: Field -> Field): (r: seq<Field>)
    ensures |r| == |fs|
    ensures Get(fs, path).None? ==> r == fs
    ensures Get(fs, path).Some? ==> Get(r, path) == Some(g(Get(fs, path).value))
    decreases |path|
  {
    if path == [] || path[0] >= |fs| then fs
    else
      var i := path[0];
      if |path| == 1 then fs[i := g(fs[i])]
      else
        match fs[i].children
        case Undefined => fs
        case Defined(cs) => fs[i := fs[i].(children := Defined(UpdateAt(cs, path[1..], g)))]
  }

  /** Nodes on other branches are untouched: any path that is neither a
      prefix nor an extension of `path` addresses what it did before. */
  lemma {:induction false} UpdateAtFrame(fs: seq<Field>, path: seq<nat>, g: Field -> Field, q: seq<nat>)
    requires !(path <= q) && !(q <= path)
    ensures Get(UpdateAt(fs, path, g), q) == Get(fs, q)
    decreases |path|
  {
    var r := UpdateAt(fs, path, g);
    if path[0] < |fs| && q[0] < |fs| && path[0] == q[0] && |path| > 1 && |q| > 1 {
      match fs[path[0]].children
      case Undefined =>
      case Defined(cs) =>
        assert path[1..] <= q[1..] ==> path <= q;
        assert q[1..] <= path[1..] ==> q <= path;
        UpdateAtFrame(cs, path[1..], g, q[1..]);
    }
  }

  /** Ancestors of the updated node keep their id, name, type and default:
      only their children lists change. */
  lemma {:induction false} UpdateAtKeepsAncestors(fs: seq<Field>, path: seq<nat>, g: Field -> Field, q: seq<nat>)
    requires q != [] && q < path
    ensures Get(UpdateAt(fs, path, g), q).Some? == Get(fs, q).Some?
    ensures Get(fs, q).Some? ==>
              var before, after := Get(fs, q).value, Get(UpdateAt(fs, path, g), q).value;
              after.id == before.id && after.name == before.name &&
              after.fieldType == before.fieldType && after.defaultValue == before.defaultValue &&
              after.children.Defined? == before.children.Defined?
    decreases |path|
  {
    if path[0] < |fs| && |q| > 1 {
      match fs[path[0]].children
      case Undefined =>
      case Defined(cs) =>
        assert q[1..] < path[1..];
        UpdateAtKeepsAncestors(cs, path[1..], g, q[1..]);
    }
  }

  /** An update that keeps the addressed node well shaped keeps the whole
      tree well shaped. */
  lemma {:induction false} UpdateAtPreservesShape(fs: seq<Field>, path: seq<nat>, g: Field -> Field)
    requires AllWellShaped(fs)
    requires Get(fs, path).Some? ==> WellShaped(g(Get(fs, path).value))
    ensures AllWellShaped(UpdateAt(fs, path, g))
    decreases |path|
  {
    if path != [] && path[0] < |fs| && |path| > 1 {
      var i := path[0];
      match fs[i].children
      case Undefined =>
      case Defined(cs) =>
        assert AllWellShaped(cs) by {
          assert WellShaped(fs[i]);
        }
        UpdateAtPreservesShape(cs, path[1..], g);
        var r := UpdateAt(fs, path, g);
        assert WellShaped(r[i]);
    }
  }

  /** Two updates of the same node, the second undoing the first, leave the
      tree as it was. */
  lemma {:induction false} UpdateAtUndo(fs: seq<Field>, path: seq<nat>, g: Field -> Field, h: Field -> Field)
    requires Get(fs, path).Some? ==> h(g(Get(fs, path).value)) == Get(fs, path).value
    ensures UpdateAt(UpdateAt(fs, path, g), path, h) == fs
    decreases |path|
  {
    if path != [] && path[0] < |fs| && |path| > 1 {
      var i := path[0];
      match fs[i].children
      case Undefined =>
      case Defined(cs) =>
        UpdateAtUndo(cs, path[1..], g, h);
        var r := UpdateAt(UpdateAt(fs, path, g), path, h);
        assert r[i] == fs[i];
    }
  }

  /** An update that leaves the addressed node as it is leaves the tree as
      it is. */
  lemma {:induction false} UpdateAtNoChange(fs: seq<Field>, path: seq<nat>, g: Field -> Field)
    ensures (Get(fs, path).Some? ==> g(Get(fs, path).value) == Get(fs, path).value) ==>
              UpdateAt(fs, path, g) == fs
    decreases |path|
  {
    if path != [] && path[0] < |fs| && |path| > 1 && (Get(fs, path).Some? ==> g(Get(fs, path).value) == Get(fs, path).value) {
      var i := path[0];
      match fs[i].children
      case Undefined =>
      case Defined(cs) =>
        UpdateAtNoChange(cs, path[1..], g);
        assert UpdateAt(fs, path, g)[i] == fs[i];
    }
  }
}
